=== FILE: README.md ===
# omni-view-sales: the data logic of the sales dashboard, in Dafny

This project models the pure data handling behind the dashboard's pages. The
pages themselves are React; only their data logic is modelled.

- **Visit analytics hook.** The hook fetches the visit log and three database
  rollups. It relabels and sorts the device and market distributions, then
  assembles the metric cards. It keeps its previous data when a query fails.
- **Paginated visit-records edge function.** It returns one page of the visit
  log, newest visit first, together with the total count and the page count.
  It returns each stored record as it is, `device_info` included; only the
  visit page's formatter parses that column.
- **Visit page helpers.** These cover the page-number window and the
  pagination bar, the duration text, the route labels, the device text and
  the "pages visited" metric.
- **Product pages.**
  - The summary cards: revenue, profit and the rounded average margin.
  - The category chart: one slice per distinct category.
  - The list filter: a case-insensitive search plus an exact category match.
  - The de-duplicated category list, the drilldown guard, and the filter
    controls as a small state machine.
- **Spreadsheet imports.**
  - The Excel upload page maps header texts to database fields. It combines
    车型 and 尺寸 into `product_type` and cleans amounts.
  - The orders page keeps only whitelisted columns and converts `order_month`.
  - Both pages share the file-name guard and the outcome toasts.
- **Customer table.** The status badge and the last-order cell.

## How the model is organised

There is one module per source file, plus a few shared modules.

- **Shared modules:**
  - `JsCore`: `Option`; a JavaScript scalar `Value` with truthiness and
    `x || fallback`; decimal text; `includes`; ASCII `toLowerCase`.
  - `Seqs`: filter, subsequence, count and first-seen de-duplication.
  - `StableSort`: the stable descending sort that `Array.prototype.sort`
    performs with a `b - a` comparator.
  - `VisitData` and `Catalog`: the row shapes.
  - `Spreadsheet`: what the two imports share.
  - `Ui`: the badge variants.
- **Numbers** are integers.
- **Clocks, parsers and formatters are parameters.** These are `JSON.parse`,
  `Date` parsing and `toISOString`, the Excel serial-date conversion, and the
  `Intl` and `toLocaleString` formatters. Each is an argument; one returning
  `None` stands for the case where it throws or yields an invalid date.
- **Database reads and writes are inputs.** Every query result, insert error
  and storage outcome is a parameter.

## Model

| member | source | states |
|---|---|---|
| VisitAnalytics.Relabel | src/hooks/use-visit-analytics.ts:97-105 | each rollup row becomes one entry with the row's count as value; the name is the row's group, or the fallback label when the group is null or empty; the values add up to the counts |
| VisitAnalytics.Distribution | src/hooks/use-visit-analytics.ts:97-105 | null rollup data gives an empty chart; otherwise the entries are exactly the relabelled rows (same multiset) ordered by value, largest first; rows with equal values keep their query order; the total is unchanged |
| VisitAnalytics.SumValuesSort | src/hooks/use-visit-analytics.ts:100 | sorting a distribution does not change the sum of its values |
| StableSort.SortDescSorted | src/hooks/use-visit-analytics.ts:100 | the `b.value - a.value` sort leaves values non-increasing and keeps the length |
| StableSort.SortDescPermutes | src/hooks/use-visit-analytics.ts:100 | the sort is a permutation of its input |
| StableSort.SortDescStable | src/hooks/use-visit-analytics.ts:100 | for every value, the entries with that value appear in input order |
| VisitAnalytics.CountOrZero | src/hooks/use-visit-analytics.ts:110-111 | a missing total or unique-visitor count reads as 0, and a present one as itself |
| VisitAnalytics.DurationOrNull | src/hooks/use-visit-analytics.ts:112 | the average duration is absent exactly when it is null or zero, and is otherwise the rollup's value |
| VisitAnalytics.AssembleMetrics | src/hooks/use-visit-analytics.ts:107-115 | only the first `get_visit_metrics` row is read, and missing or empty rows give 0, 0 and no duration; the average duration is the first row's value, absent when null or zero; the two distributions are built with the unknown-platform and unknown-region labels |
| VisitAnalytics.InitialState | src/hooks/use-visit-analytics.ts:55-63 | the hook starts loading, with no records, zero counts, no duration and empty charts |
| VisitAnalytics.FirstError | src/hooks/use-visit-analytics.ts:71-94 | there is an error exactly when one of the four awaited queries failed; its message is that of the records query if it failed, else of the metrics query, else of the device query, else of the market query |
| VisitAnalytics.BeginFetch | src/hooks/use-visit-analytics.ts:68 | entering a fetch sets the loading flag and changes nothing else |
| VisitAnalytics.CompleteFetch | src/hooks/use-visit-analytics.ts:107-124 | loading always ends; on an error the records and metrics stay as they were and a "获取记录失败" toast carries the message; on success there is no toast, the records are the query's data or [], and the metrics are assembled from the rollups |
| VisitAnalytics.FetchVisitRecords | src/hooks/use-visit-analytics.ts:66-125 | a whole fetch ends not loading, keeps the old data on failure, and raises no toast on success |
| VisitAnalytics.FailedRefetchKeepsData | src/hooks/use-visit-analytics.ts:116-124 | a failing fetch after a successful one still shows the successful fetch's records and metrics |
| VisitAnalytics.SuccessForgetsPriorState | src/hooks/use-visit-analytics.ts:107-115 | a successful fetch gives the same result from any prior state |
| Paginator.Status | supabase/functions/paginated-visit-records/index.ts:53-61 | the status is 500 exactly for an error response |
| Paginator.OrderByStartDesc | supabase/functions/paginated-visit-records/index.ts:37-40 | the ordered table is a permutation of the rows with visits lacking a start time first (PostgreSQL's NULLS FIRST for DESC), then the rest by start time, latest first |
| Paginator.Offset | supabase/functions/paginated-visit-records/index.ts:28-29 | the offset of page 1 is 0; from page 1 on, with a non-negative page size, it is non-negative; below page 1, with a positive page size, it is negative |
| Paginator.Window | supabase/functions/paginated-visit-records/index.ts:41 | `range(from, to)` returns at most `to - from + 1` rows, none past the end, and otherwise the contiguous slice starting at `from` |
| Paginator.RangeQuery | supabase/functions/paginated-visit-records/index.ts:37-43 | a database failure is reported with its message; a successful query has a non-negative offset and limit and returns that window of the ordered table |
| Paginator.CeilDiv | supabase/functions/paginated-visit-records/index.ts:49 | `Math.ceil(n / d)` is the least multiple count covering `n` (for either sign of `d`) |
| Paginator.TotalPages | supabase/functions/paginated-visit-records/index.ts:49 | the page count is null exactly for page size 0; it is 0 for an empty table and otherwise the least number of pages holding every row |
| Paginator.Handle | supabase/functions/paginated-visit-records/index.ts:10-62 | OPTIONS gets the preflight reply; a failed records query gives an error response; a page echoes the page and page size (page 1 and page size 10 when missing), reports the table size and page count, holds at most a page size of records, and holds exactly the window at `(page - 1) * pageSize` of the ordered table |
| Paginator.PreflightIgnoresStore | supabase/functions/paginated-visit-records/index.ts:12-14 | the preflight reply does not depend on the table and has status 200 |
| Paginator.ValidRequestServed | supabase/functions/paginated-visit-records/index.ts:19-43 | with a page of at least 1, a non-negative page size and a working database, every request gets a page |
| Paginator.PageBelowOneFails | supabase/functions/paginated-visit-records/index.ts:29-61 | a page number below 1 with a positive page size gives an error response with status 500 |
| Paginator.SweepIsPrefix | supabase/functions/paginated-visit-records/index.ts:29-41 | pages 1..k laid end to end are the first `k * pageSize` records of the ordered table |
| Paginator.SweepCoversAll | supabase/functions/paginated-visit-records/index.ts:29-49 | with every page cut from the same ordered table (one tie order for all page queries), pages 1..totalPages together are exactly that table: no record missed or repeated |
| Paginator.PastLastPageEmpty | supabase/functions/paginated-visit-records/index.ts:29-41 | every page past the last is empty |
| Paginator.PastLastPageResponse | supabase/functions/paginated-visit-records/index.ts:29-51 | a request past the last page gets an empty page (not an error) with the true total count |
| Paginator.TwentyFiveInPagesOfTen | supabase/functions/paginated-visit-records/index.ts:45-51 | 25 visits in pages of 10 make 3 pages; page 3 holds 5 visits and page 4 none |
| VisitInfo.Range | src/pages/VisitInfo.tsx:79-90 | `Array.from({length}, (_, i) => lo + i)` is the consecutive run from `lo`, empty for a negative length |
| VisitInfo.VisiblePages | src/pages/VisitInfo.tsx:74-91 | the window holds min(totalPages, 5) consecutive pages within 1..totalPages; it contains the current page whenever that page exists; with more than 5 pages it starts at max(1, min(current - 2, totalPages - 4)), so it is centred away from both ends and pinned at either edge |
| VisitInfo.BarAsWritten | src/pages/VisitInfo.tsx:222-276 | as rendered: the first-page link shows exactly above page 3 and the leading ellipsis above page 4; the last-page link shows exactly below `totalPages - 2` and the trailing ellipsis below `totalPages - 3`; the window is the visible-pages window; previous and next are disabled on the first and last page |
| VisitInfo.AsWrittenRepeatsFirstPage | src/pages/VisitInfo.tsx:229-242 | on page 4 of 5 the bar shows a link to page 1 although the window already shows page 1 |
| VisitInfo.AsWrittenGaplessEllipsis | src/pages/VisitInfo.tsx:257-270 | on page 1 of 6 the bar shows an ellipsis between pages 5 and 6 although no page lies between them |
| VisitInfo.Bar | src/pages/VisitInfo.tsx:222-276 | corrected bar: a first or last link exactly when the window misses that page, an ellipsis exactly when pages are skipped, and no page number shown twice |
| VisitInfo.BarsAgreeInTheMiddle | src/pages/VisitInfo.tsx:229-270 | away from both ends of a long page list the corrected and rendered bars coincide |
| VisitInfo.TruncRem60 | src/pages/VisitInfo.tsx:65 | JavaScript's `%` keeps the dividend's sign: the remainder is the Euclidean one for non-negative seconds and lies strictly between -60 and 60 |
| VisitInfo.FormatDuration | src/pages/VisitInfo.tsx:61-71 | a null duration shows "暂无数据" |
| VisitInfo.ShortDurationRoundTrip | src/pages/VisitInfo.tsx:64-70 | under a minute the text is seconds only and reads back as the same number of seconds |
| VisitInfo.LongDurationRoundTrip | src/pages/VisitInfo.tsx:64-68 | from a minute on the text has a minutes part and reads back as the same number of seconds |
| VisitInfo.FormatDurationRoundTrip | src/pages/VisitInfo.tsx:61-71 | every non-negative duration is shown without loss, with "分" exactly when it reaches a minute |
| VisitInfo.PageName | src/pages/VisitInfo.tsx:47-59 | a known route shows its label; any other path is shown as itself |
| VisitInfo.PageNameIdentifiesRoute | src/pages/VisitInfo.tsx:48-56 | distinct known routes have distinct labels |
| VisitInfo.DimensionText | src/pages/VisitInfo.tsx:44 | a screen dimension shows "?" exactly when it is missing or zero |
| VisitInfo.FormatDeviceInfo | src/pages/VisitInfo.tsx:33-45 | a falsy value shows "未知设备"; text that does not parse is shown as it is; text that parses is described as its parsed value; another truthy scalar has no fields and reads "未知平台 - ?x?"; an object shows "platform - WxH" |
| VisitInfo.StoredDeviceText | src/pages/VisitInfo.tsx:33-45 | stored JSON text of a device object reads "<platform> - <width>x<height>"; without a platform it begins with "未知平台", and without dimensions it ends " - ?x?" |
| VisitInfo.DescribeFieldsParts | src/pages/VisitInfo.tsx:44 | the device text is "<platform> - <width>x<height>"; the platform is "未知平台" when missing or empty, and each dimension is "?" exactly when missing or zero |
| VisitInfo.AsWrittenNullDeviceFails | src/pages/VisitInfo.tsx:36-44 | a stored text "null" parses to `null`, and reading its platform fails the render |
| VisitInfo.DeviceLabel | src/pages/VisitInfo.tsx:33-45 | corrected formatter: a parsed `null` reads as an unknown device, and it agrees with the page wherever the page renders |
| VisitInfo.DistinctPathCount | src/pages/VisitInfo.tsx:122 | the pages-visited metric is the number of distinct paths: at most the number of visits, at least 1 when there is a visit |
| ProductUtils.OrZero | src/components/Products/ProductUtils.tsx:11-12 | a null sales or profit adds 0, and a present one adds itself |
| ProductUtils.RoundDiv | src/components/Products/ProductUtils.tsx:23 | `Math.round(a / b)` is the integer nearest to a/b, with halves rounded up |
| ProductUtils.Summarize | src/components/Products/ProductUtils.tsx:4-25 | the product count is the input length; revenue and profit are the sums with null as 0; the average margin is 0 when no margin is truthy, otherwise the rounded mean over the truthy margins only |
| ProductUtils.CalculateSummary | src/components/Products/ProductUtils.tsx:4-25 | the single pass computes exactly the summary above |
| ProductUtils.MarginlessProductKeepsAverage | src/components/Products/ProductUtils.tsx:13-16 | adding a product with a null or zero margin changes the product count but not the average margin |
| ProductUtils.Tally | src/components/Products/ProductUtils.tsx:28-36 | the counting object's keys, in insertion order, are the distinct categories in first-seen order, and each count is that category's number of products |
| ProductUtils.CalculateCategoryDistribution | src/components/Products/ProductUtils.tsx:27-41 | one entry per distinct category, in first-seen order; each value is the number of products in that category and is at least 1; every category appears; the values add up to the number of products |
| JsCore.Includes | src/pages/Products.tsx:43-44 | `includes` holds exactly when the needle occurs at some position |
| ProductsPage.Shown | src/pages/Products.tsx:40-48 | a product without a name or a category is never shown; otherwise it is shown exactly when the query matches its name or category and, with a category filter in force, its category equals the filter |
| ProductsPage.FilteredProducts | src/pages/Products.tsx:40-49 | the list is an order-preserving subsequence holding exactly the products with a name and a category that match the search on name or category; with a category filter in force every result has that category |
| ProductsPage.FilteredProductsCounts | src/pages/Products.tsx:40-49 | the list holds every copy of a shown product and no copy of any other |
| ProductsPage.EmptyQueryMatches | src/pages/Products.tsx:43-44 | an empty query matches every product |
| ProductsPage.NoFilterListsAllListable | src/pages/Products.tsx:40-48 | with no query and no category the list holds every product that has a name and a category |
| ProductsPage.QueryCaseIgnored | src/pages/Products.tsx:43-44 | lower-casing the query does not change the list |
| ProductsPage.UniqueCategories | src/pages/Products.tsx:68-74 | the category list has no duplicates and no empty entry, and holds exactly the non-empty categories of the products |
| ProductsPage.UniqueCategoriesFirstSeenOrder | src/pages/Products.tsx:68-74 | categories are listed in order of their first appearance |
| ProductsPage.HandleProductClick | src/pages/Products.tsx:51-59 | a product with a name and a category is selected and opens the drilldown; any other click leaves the state unchanged |
| ProductsPage.ClearFilters | src/pages/Products.tsx:61-65 | clearing resets the query to '', the category to null and the filtering flag to false |
| ProductsPage.ClearFiltersShowsAll | src/pages/Products.tsx:61-65 | after clearing, every product with a name and a category is listed again |
| ProductSearch.Step | src/components/Products/ProductSearchFilters.tsx:44-99 | typing replaces only the query; the search X clears only the query; a category badge sets that category and the filtering flag; the chip's X clears only the category; the clear button resets all three |
| ProductSearch.SearchClearVisible | src/components/Products/ProductSearchFilters.tsx:46 | the search box's X is drawn exactly when the query is truthy |
| ProductSearch.ClearFiltersVisible | src/components/Products/ProductSearchFilters.tsx:86 | the clear-filters button is drawn exactly when the query or the category filter is truthy |
| ProductSearch.ChipVisible | src/components/Products/ProductSearchFilters.tsx:94 | the active-filter chip is drawn exactly when the filtering flag is set and the category filter is truthy |
| ProductSearch.VisibilityAfterStep | src/components/Products/ProductSearchFilters.tsx:44-104 | the clear button shows whenever the search X or the chip does; after clearing none of the three shows; choosing a named category shows the chip and the clear button; typing shows the search X exactly for a non-empty query |
| ProductSearch.CategoryBadge | src/components/Products/ProductSearchFilters.tsx:71 | a badge is 'default' exactly when it is the selected category, and 'outline' otherwise |
| ProductSearch.OneHighlightedBadge | src/components/Products/ProductSearchFilters.tsx:68-71 | among distinct categories at most one badge is highlighted, and it is the selected one |
| ProductSearch.RunStaysConsistent | src/components/Products/ProductSearchFilters.tsx:73-99 | from a consistent state no sequence of actions reaches a chosen category without the filtering flag, so a chosen non-empty category always shows the chip and the clear button |
| ProductSearch.ClearSearchKeepsCategory | src/components/Products/ProductSearchFilters.tsx:46-49 | the search X keeps the category and the chip's visibility, and hides itself |
| ProductSearch.RemoveChipHidesChip | src/components/Products/ProductSearchFilters.tsx:94-99 | removing the chip hides it and keeps the filtering flag; the clear button then shows only if there is a query |
| Spreadsheet.ExcelFileNameShape | src/pages/ExcelUpload.tsx:45 | the guard accepts exactly the names that end in ".xlsx" or ".xls" |
| Spreadsheet.OutcomeToast | src/pages/ExcelUpload.tsx:45-52 | no file raises no toast; every failure raises a destructive toast (format error, or "上传失败" with the message); success names the number of imported rows |
| Spreadsheet.ImportedMessageNamesCount | src/pages/ExcelUpload.tsx:163-166 | different row counts give different success messages |
| ExcelUpload.HeaderColumns | src/pages/ExcelUpload.tsx:85-91 | the header map holds exactly the header cells whose text is a mapping key, each paired with its field, and nothing else |
| ExcelUpload.HeaderColumnsExtend | src/pages/ExcelUpload.tsx:85-91 | a header cell added at the right adds its column, if mapped, after all earlier columns |
| ExcelUpload.HeaderColumnsConcat | src/pages/ExcelUpload.tsx:85-91 | the header map of two runs of cells is the first run's map followed by the second's, so mapped columns keep their left-to-right order |
| ExcelUpload.UnmappedHeaderIgnored | src/pages/ExcelUpload.tsx:88 | a header whose text is not a mapping key adds nothing to the header map |
| ExcelUpload.StripAmount | src/pages/ExcelUpload.tsx:125 | the cleaned amount is a subsequence of the text made of digits, '.' and '-' only, containing each such character of the text |
| ExcelUpload.StripAmountCounts | src/pages/ExcelUpload.tsx:125 | every occurrence of a digit, '.' or '-' is kept, and no occurrence of any other character |
| ExcelUpload.StripAmountPerCharacter | src/pages/ExcelUpload.tsx:125 | cleaning a concatenation cleans each part, and a single character is kept exactly when it is a digit, '.' or '-'; this determines the cleaned text completely |
| ExcelUpload.StripAmountExample | src/pages/ExcelUpload.tsx:125 | "1,000" is cleaned to "1000" |
| ExcelUpload.StripAmountIdempotent | src/pages/ExcelUpload.tsx:125 | cleaning twice equals cleaning once, and a clean amount is unchanged |
| ExcelUpload.ApplyColumn | src/pages/ExcelUpload.tsx:98-143 | an undefined cell changes nothing; only the column's own field can change; a numeric amount is kept, a text amount is cleaned, and an amount of any other type leaves the record unchanged; `product_type` becomes "stored-new" when the stored value is truthy, and the new value otherwise |
| ExcelUpload.ProcessRow | src/pages/ExcelUpload.tsx:94-147 | every key of a record comes from a mapped column whose cell is defined |
| ExcelUpload.RecordKeysAreMappedFields | src/pages/ExcelUpload.tsx:12-24 | every record key is a database field named by the header mapping |
| ExcelUpload.ApplyColumnLocal | src/pages/ExcelUpload.tsx:98-143 | a column's effect on its field depends only on that field's previous value |
| ExcelUpload.FieldIsolation | src/pages/ExcelUpload.tsx:98-143 | each field of a record is decided by the columns mapped to that field alone |
| ExcelUpload.VerbatimFieldLastWins | src/pages/ExcelUpload.tsx:140-142 | a field without special handling holds its last defined column's value, and is absent when all its cells are undefined |
| ExcelUpload.ProductTypeIsPlain | src/pages/ExcelUpload.tsx:130-138 | `product_type` only ever holds a copied or combined cell value |
| ExcelUpload.ProductTypeCombined | src/pages/ExcelUpload.tsx:18-19 | with a 车型 column before a 尺寸 column and a truthy first value, `product_type` is "first-second" |
| ExcelUpload.ProductTypeFirstFalsy | src/pages/ExcelUpload.tsx:130-138 | when the first product value is falsy, the second one replaces it |
| ExcelUpload.Import | src/pages/ExcelUpload.tsx:34-174 | no file does nothing; a non-Excel name is rejected before reading; fewer than two sheet rows fail with "Excel文件没有数据或格式不正确"; an insert error fails with "数据上传失败: " and its message; a success has one record per data row, each from the header row's mapping |
| ExcelUpload.ImportCountsDataRows | src/pages/ExcelUpload.tsx:149-166 | a successful import reports the number of rows below the header |
| Orders.OrderMonthField | src/pages/Orders.tsx:126-147 | a truthy number or string that converts becomes its ISO date; anything else becomes null |
| Orders.ProcessOrderRow | src/pages/Orders.tsx:119-155 | the record's keys are exactly the row's whitelisted keys; every field but `order_month` is copied unchanged; a falsy `order_month` is copied; a truthy one of another type, or an unparseable string, becomes null |
| Orders.UnknownColumnsIgnored | src/pages/Orders.tsx:122-124 | columns outside the whitelist do not influence the record |
| Orders.IsoMonthKept | src/pages/Orders.tsx:134-139 | a month string that parses to itself is kept as that date |
| Orders.StorageName | src/pages/Orders.tsx:76-77 | the storage name starts with a digit, contains a dash and ends with the file name |
| Orders.StorageNameRoundTrip | src/pages/Orders.tsx:76-77 | reading the digits before the first dash and the text after it gives back the timestamp and the file name |
| Orders.StorageNameInjective | src/pages/Orders.tsx:76-77 | two uploads share a storage name only with the same timestamp and the same file name |
| Orders.ProcessRows | src/pages/Orders.tsx:119-155 | one record per sheet row, in order, each the row's whitelisted record |
| Orders.Upload | src/pages/Orders.tsx:52-189 | no file does nothing; a non-Excel name is rejected before upload; a storage failure gives "文件上传失败"; a failure while fetching or reading the stored file reports that error's message; every other failure message is one of the three the page throws; a success has one whitelisted record per sheet row |
| Orders.ImportedRecordsWhitelisted | src/pages/Orders.tsx:113-160 | when everything succeeds, every imported record has only whitelisted keys |
| Orders.FormatCurrency | src/pages/Orders.tsx:192-198 | an undefined amount shows ''; any other amount goes to the currency formatter |
| Orders.FormatDate | src/pages/Orders.tsx:201-213 | a missing or empty date shows ''; a date the formatter accepts shows its year-and-month text; a date the formatter rejects is shown as given |
| Customers.StatusBadge | src/pages/Customers.tsx:89-114 | 1 gives (潜在客户, secondary), 2 gives (活跃客户, default), 3 gives (流失客户, destructive), and anything else, including null or a numeric string, gives (未知, outline); each in both directions |
| Customers.StatusBadgeRoundTrip | src/pages/Customers.tsx:94-110 | a known status's badge text reads back as that status; every other status reads as unknown |
| Customers.StatusBadgeInjective | src/pages/Customers.tsx:94-110 | two statuses share a badge only when they are equal or both unknown |
| Customers.LastOrderText | src/pages/Customers.tsx:69-72 | a null or empty last order shows "暂无购买记录"; otherwise the locale date of the value |

## Left out

- **Database queries, inserts, storage uploads, `fetch`, toasts as UI, `FileReader` and Deno `serve`.** These are I/O. Their results are parameters, and a toast is returned as data.
- **Bodies of `get_visit_metrics`, `get_device_distribution` and `get_market_distribution_unique_daily`.** These database functions are not part of this model; their rows are inputs.
- **Order among equal start times in the paginator.** The database leaves it unspecified. `Paginator.OrderByStartDesc` picks one admissible order: a stable sort of the table. The hook's own `order(...)` query is taken as already ordered.
- Paginator.SweepCoversAll: assumes every page query breaks ties among equal start times the same way. Each page is a separate query, and PostgreSQL does not promise a consistent order among equal `visit_start_time` values across queries; all missing start times tie with each other. Without that assumption a record with a tied start time can be missed or repeated across pages.
- **Non-atomic count and page queries, and an unchecked count error.** The two queries in the paginator (index.ts:32-41) are not atomic, and a count error goes unchecked. The model reads one snapshot of the table.
- **`parseInt` of malformed parameters.** Such a parameter (NaN) is not modelled. Parameters arrive as integers, with `None` for missing or empty ones.
- **A negative offset or limit.** `Paginator.RangeQuery` models this as a rejected query, which gives a 500.
- **The pagination wiring between the visit page and the hook.** The page destructures `pagination` from the hook (src/pages/VisitInfo.tsx:23), but the hook returns none (src/hooks/use-visit-analytics.ts:131-136). The page calls `getVisiblePages()` unconditionally (src/pages/VisitInfo.tsx:93), and its destructuring of `undefined` (src/pages/VisitInfo.tsx:75) throws on every render, including while loading, before anything is shown. Every visit-page helper in `VisitInfo`, and all three findings below, therefore apply only once that wiring exists. `VisiblePages` and `Bar` take the current page and the page count as arguments.
- **Floating point.** This covers `parseFloat` of cleaned amounts (kept as the cleaned text), fractional margins, amounts and durations, and `Number(item.count)`. All numbers are integers.
- **`Date`, the Excel epoch arithmetic, `toISOString`, `JSON.parse` and the `Intl`/`toLocaleString` formatters.** They depend on libraries and the time zone, so they are function parameters.
- **ASCII-only lower-casing.** `toLowerCase` is modelled for the ASCII letters only; other case mappings are not.
- **Integer-like keys in the category counter.** Object key order would list category names such as "2024" first. `ProductUtils.CalculateCategoryDistribution` lists keys in insertion order; category names are assumed not to be integer-like.
- **Keys of `Object.prototype` in the lookup objects.** A category, header text or path named "constructor" or "toString" is looked up on the prototype, in `categoryCounts`, `headerMapping` and `pathMap`. The model treats such keys like any other text.
- **`ExcelUpload.HeaderColumns` and duplicate header cells.** The model assumes each column letter appears once per row, as `Object.entries` guarantees.
- **Blank-row skipping and workbook errors in the sheet reader.** The rows arrive already read.
- **Progress percentages, the uploading flag, the file-name state and the reset of the file input.** These are UI state with no data content.
- **Rendering-only components.** Charts, cards, tables, the top-10 market slice, headers, sidebars, the `company.substring` avatar text and routing.

## Findings

| source | as written | input that shows it | evidently intended | confidence | as-written member | corrected member |
|---|---|---|---|---|---|---|
| src/pages/VisitInfo.tsx:229-242 | the first-page link shows whenever the current page is above 3, whatever the window holds | 5 pages, current page 4: the window is 1..5 and a separate link to 1 is shown too | a first-page link only when the window does not start at 1, an ellipsis only when pages are skipped | not executed | VisitInfo.AsWrittenRepeatsFirstPage | VisitInfo.Bar |
| src/pages/VisitInfo.tsx:257-270 | the trailing ellipsis shows whenever the current page is more than 3 below the last | 6 pages, current page 1: the window is 1..5, then an ellipsis, then 6 | an ellipsis only when pages lie between the window and the last-page link | not executed | VisitInfo.AsWrittenGaplessEllipsis | VisitInfo.Bar |
| src/pages/VisitInfo.tsx:36-44 | a stored string is parsed, and the result's `platform` is read without a check | `device_info` holding the text "null": `JSON.parse` gives `null`, and reading `.platform` throws during render | a parsed `null` reads as an unknown device | not executed | VisitInfo.AsWrittenNullDeviceFails | VisitInfo.DeviceLabel |

=== FILE: catalog.dfy ===
/** The `products` row as the product pages read it (src/types/product.ts).
    Prices and ratios are whole numbers here; a `null` column is `None`. */
module Catalog {
  import opened JsCore

  datatype ProductData = ProductData(
    id: string,
    name: string,
    category: string,
    price: int,
    inventory: Option<int>,
    sales: Option<int>,
    growth: Option<int>,
    profit: Option<int>,
    margin: Option<int>,
    customers: Option<int>,
    createdAt: Option<string>)

  /** The summary cards' figures. */
  datatype Summary = Summary(totalRevenue: int, totalProducts: nat, totalProfit: int, avgMargin: int)

  /** One slice of the category chart. */
  datatype CategoryCount = CategoryCount(name: string, value: nat)

  /** The category of every product, in order. */
  function Categories(ps: seq<ProductData>): (cs: seq<string>)
    ensures |cs| == |ps|
    ensures forall i :: 0 <= i < |ps| ==> cs[i] == ps[i].category
  {
    seq(|ps|, i requires 0 <= i < |ps| => ps[i].category)
  }
}

=== FILE: customers.dfy ===
/** The customer table's status badge and last-order cell
    (src/pages/Customers.tsx). */
module Customers {
  import opened JsCore
  import opened Ui

  /** A badge: its text and its style. */
  datatype StatusView = StatusView(text: string, variant: BadgeVariant)

  const Prospect: string := "潜在客户"
  const Active: string := "活跃客户"
  const Churned: string := "流失客户"
  const Unknown: string := "未知"
  const NoPurchase: string := "暂无购买记录"

  /** The `switch (status)` of the status column, with strict equality: only
      the numbers 1, 2 and 3 are known. */
  function StatusBadge(status: Value): (b: StatusView)
    ensures status == Num(1) <==> b == StatusView(Prospect, Secondary)
    ensures status == Num(2) <==> b == StatusView(Active, Default)
    ensures status == Num(3) <==> b == StatusView(Churned, Destructive)
    ensures status !in {Num(1), Num(2), Num(3)} <==> b == StatusView(Unknown, Outline)
  {
    match status
    case Num(1) => StatusView(Prospect, Secondary)
    case Num(2) => StatusView(Active, Default)
    case Num(3) => StatusView(Churned, Destructive)
    case _ => StatusView(Unknown, Outline)
  }

  /** The status a badge text stands for. */
  function StatusCode(text: string): (code: Option<int>)
    ensures code.Some? ==> code.value in {1, 2, 3}
  {
    if text == Prospect then Some(1)
    else if text == Active then Some(2)
    else if text == Churned then Some(3)
    else None
  }

  /** The badge text identifies the status: known statuses read back, and
      everything else reads as unknown. */
  lemma StatusBadgeRoundTrip(status: Value)
    ensures status in {Num(1), Num(2), Num(3)} ==> StatusCode(StatusBadge(status).text) == Some(status.n)
    ensures status !in {Num(1), Num(2), Num(3)} ==> StatusCode(StatusBadge(status).text).None?
  {
  }

  /** Badges of two statuses coincide only when both are unknown or the
      statuses are equal. */
  lemma StatusBadgeInjective(s1: Value, s2: Value)
    requires StatusBadge(s1) == StatusBadge(s2)
    ensures s1 == s2 || StatusBadge(s1).text == Unknown
  {
    StatusBadgeRoundTrip(s1);
    StatusBadgeRoundTrip(s2);
  }

  /** The last-order cell: a falsy value shows the no-purchase text;
      otherwise the locale date of the value. */
  function LastOrderText(lastOrder: Option<string>, localeDate: string -> string): (text: string)
    ensures lastOrder.None? || lastOrder.value == "" ==> text == NoPurchase
    ensures lastOrder.Some? && lastOrder.value != "" ==> text == localeDate(lastOrder.value)
  {
    match lastOrder
    case Some(v) => if v != "" then localeDate(v) else NoPurchase
    case None => NoPurchase
  }
}

=== FILE: excel_upload.dfy ===
/** The Excel upload page (src/pages/ExcelUpload.tsx): the header row picks
    the columns to read, every data row becomes one `customer_orders` record,
    and the records are inserted in one batch. Reading the workbook is left
    to the caller; a sheet arrives as rows of cells keyed by column letter,
    in column order. */
module ExcelUpload {
  import opened JsCore
  import opened Spreadsheet
  import Seqs

  /** `headerMapping`: header text to database field. Both 车型 and 尺寸
      feed `product_type`. */
  const HeaderMapping: map<string, string> := map[
    "客户编码" := "customer_code",
    "客户名称" := "customer_name",
    "客户简称" := "customer_short_name",
    "国家" := "country",
    "类型" := "type",
    "车型" := "product_type",
    "尺寸" := "product_type",
    "材质" := "material",
    "月份" := "order_month",
    "业务员" := "sales_person",
    "下单金额" := "order_amount"]

  const OrderMonth: string := "order_month"
  const OrderAmount: string := "order_amount"
  const ProductType: string := "product_type"

  const NoDataMessage: string := "Excel文件没有数据或格式不正确"
  const InsertFailedPrefix: string := "数据上传失败: "

  /** One cell of a row: its column letter and its value (`Undefined` when
      the sheet has nothing there). */
  datatype Cell = Cell(column: string, value: Value)

  /** A header cell mapped to a field (an entry of `headerMap`). */
  datatype Column = Column(cell: string, field: string)

  /** `row[cell]`: the value in a column, `Undefined` if the row has none. */
  function Get(row: seq<Cell>, column: string): (v: Value)
    ensures (forall i :: 0 <= i < |row| ==> row[i].column != column) ==> v == Undefined
    decreases |row|
  {
    if row == [] then Undefined
    else if row[0].column == column then row[0].value
    else Get(row[1..], column)
  }

  /** The header text names a mapped column. The lookup goes through the
      property key, the text form of the cell. */
  predicate IsMappedHeader(h: Cell) {
    ToText(h.value) in HeaderMapping
  }

  /** `headerMap`: the mapped header cells in column order. */
  function HeaderColumns(headers: seq<Cell>): (hm: seq<Column>)
    ensures |hm| <= |headers|
    ensures forall c :: c in hm ==> c.field in HeaderMapping.Values
    ensures forall c :: c in hm <==>
      exists i :: 0 <= i < |headers| && IsMappedHeader(headers[i]) &&
        c == Column(headers[i].column, HeaderMapping[ToText(headers[i].value)])
    decreases |headers|
  {
    if headers == [] then []
    else
      var init := headers[..|headers| - 1];
      var h := headers[|headers| - 1];
      var rest := HeaderColumns(init);
      assert forall i :: 0 <= i < |init| ==> headers[i] == init[i];
      if IsMappedHeader(h) then rest + [Column(h.column, HeaderMapping[ToText(h.value)])] else rest
  }

  /** A header cell appended to the row adds its column, if mapped, after
      the columns of the cells before it. */
  lemma HeaderColumnsExtend(headers: seq<Cell>, h: Cell)
    ensures HeaderColumns(headers + [h]) == HeaderColumns(headers) +
      (if IsMappedHeader(h) then [Column(h.column, HeaderMapping[ToText(h.value)])] else [])
  {
    assert (headers + [h])[..|headers|] == headers;
  }

  /** The header map of two runs of header cells is the first run's map
      followed by the second's: mapped columns keep their left-to-right
      order. */
  lemma {:induction false} HeaderColumnsConcat(left: seq<Cell>, right: seq<Cell>)
    ensures HeaderColumns(left + right) == HeaderColumns(left) + HeaderColumns(right)
    decreases |right|
  {
    if right == [] {
      assert left + right == left;
    } else {
      var init := right[..|right| - 1];
      var h := right[|right| - 1];
      var tail := if IsMappedHeader(h) then [Column(h.column, HeaderMapping[ToText(h.value)])] else [];
      calc {
        HeaderColumns(left + right);
        { assert left + right == (left + init) + [h]; }
        HeaderColumns((left + init) + [h]);
        { HeaderColumnsExtend(left + init, h); }
        HeaderColumns(left + init) + tail;
        { HeaderColumnsConcat(left, init); }
        (HeaderColumns(left) + HeaderColumns(init)) + tail;
        HeaderColumns(left) + (HeaderColumns(init) + tail);
        { assert right == init + [h]; HeaderColumnsExtend(init, h); }
        HeaderColumns(left) + HeaderColumns(right);
      }
    }
  }

  /** A header cell whose text is not a mapping key contributes nothing. */
  lemma UnmappedHeaderIgnored(headers: seq<Cell>, h: Cell)
    requires !IsMappedHeader(h)
    ensures HeaderColumns(headers + [h]) == HeaderColumns(headers)
  {
    assert (headers + [h])[..|headers|] == headers;
  }

  /** A character kept by `replace(/[^\d.-]/g, '')`. */
  predicate AmountChar(c: char) {
    IsDigit(c) || c == '.' || c == '-'
  }

  /** The amount text with everything but digits, '.' and '-' removed. */
  function StripAmount(s: string): (r: string)
    ensures Seqs.IsSubsequence(r, s)
    ensures forall i :: 0 <= i < |r| ==> AmountChar(r[i])
    ensures forall c :: c in r <==> c in s && AmountChar(c)
  {
    Seqs.FilterIsSubsequence(s, AmountChar);
    var r := Seqs.Filter(s, AmountChar);
    assert forall i :: 0 <= i < |r| ==> r[i] in r;
    r
  }

  /** Cleaning keeps every occurrence of a digit, '.' or '-', and no
      occurrence of anything else. */
  lemma StripAmountCounts(s: string, c: char)
    ensures multiset(StripAmount(s))[c] == if AmountChar(c) then multiset(s)[c] else 0
  {
    Seqs.FilterCounts(s, AmountChar, c);
  }

  /** Cleaning works character by character: a kept character stays in
      place, any other disappears, and the cleaned text of a concatenation
      is the concatenation of the cleaned parts. Together these determine
      `StripAmount` completely. */
  lemma StripAmountPerCharacter(a: string, b: string, c: char)
    ensures StripAmount(a + b) == StripAmount(a) + StripAmount(b)
    ensures StripAmount([c]) == if AmountChar(c) then [c] else []
  {
    Seqs.FilterConcat(a, b, AmountChar);
    assert [c][..0] == [];
  }

  /** A thousands separator is dropped and every digit kept: "1,000" is
      cleaned to "1000". */
  lemma StripAmountExample()
    ensures StripAmount("1,000") == "1000"
  {
    var s := "1,000";
    assert Seqs.Filter(s[..1], AmountChar) == "1" by {
      assert s[..1][..0] == [];
    }
    assert Seqs.Filter(s[..2], AmountChar) == "1" by {
      assert s[..2][..1] == s[..1];
    }
    assert Seqs.Filter(s[..3], AmountChar) == "10" by {
      assert s[..3][..2] == s[..2];
    }
    assert Seqs.Filter(s[..4], AmountChar) == "100" by {
      assert s[..4][..3] == s[..3];
    }
    assert Seqs.Filter(s, AmountChar) == "1000" by {
      assert s[..4] == s[..|s| - 1];
    }
  }

  /** Stripping is idempotent, and a clean amount passes unchanged. */
  lemma StripAmountIdempotent(s: string)
    ensures StripAmount(StripAmount(s)) == StripAmount(s)
    ensures (forall i :: 0 <= i < |s| ==> AmountChar(s[i])) ==> StripAmount(s) == s
  {
    Seqs.FilterIdempotent(s, AmountChar);
    if forall i :: 0 <= i < |s| ==> AmountChar(s[i]) {
      Seqs.FilterKeepsAll(s, AmountChar);
    }
  }

  /** `rec[field]` holds a truthy value (`!!recordData[fieldName]`). */
  predicate HoldsTruthy(rec: Record, field: string) {
    field in rec && rec[field].Plain? && Truthy(rec[field].v)
  }

  /** The body of the per-column loop: one mapped column of one row. */
  function ApplyColumn(rec: Record, col: Column, row: seq<Cell>, codec: DateCodec): (r: Record)
    ensures Get(row, col.cell) == Undefined ==> r == rec
    ensures forall k :: k != col.field ==> (k in r <==> k in rec) && (k in r ==> r[k] == rec[k])
    ensures col.field in rec ==> col.field in r
    ensures col.field == OrderAmount && Get(row, col.cell).Num? ==>
      OrderAmount in r && r[OrderAmount] == Plain(Get(row, col.cell))
    ensures col.field == OrderAmount && Get(row, col.cell).Str? ==>
      OrderAmount in r && r[OrderAmount] == Amount(StripAmount(Get(row, col.cell).s))
    ensures col.field == OrderAmount && !Get(row, col.cell).Num? && !Get(row, col.cell).Str? ==> r == rec
    ensures col.field == ProductType && Get(row, col.cell) != Undefined ==>
      ProductType in r && r[ProductType] == if HoldsTruthy(rec, ProductType)
        then Plain(Str(ToText(rec[ProductType].v) + "-" + ToText(Get(row, col.cell))))
        else Plain(Get(row, col.cell))
  {
    var v := Get(row, col.cell);
    var f := col.field;
    if v == Undefined then rec
    else if f == OrderMonth && Truthy(v) then
      match v
      case Num(n) =>
        (match codec.fromSerial(n)
         case Some(d) => rec[f := IsoDate(d)]
         case None => rec)
      case Str(s) =>
        (match codec.fromText(s)
         case Some(d) => rec[f := IsoDate(d)]
         case None => rec)
      case _ => rec
    else if f == OrderAmount then
      match v
      case Num(_) => rec[f := Plain(v)]
      case Str(s) => rec[f := Amount(StripAmount(s))]
      case _ => rec
    else if f == ProductType then
      if HoldsTruthy(rec, f) then rec[f := Plain(Str(ToText(rec[f].v) + "-" + ToText(v)))]
      else rec[f := Plain(v)]
    else rec[f := Plain(v)]
  }

  /** `recordData` after the loop over `headerMap`. */
  function ProcessRow(hm: seq<Column>, row: seq<Cell>, codec: DateCodec): (r: Record)
    ensures forall k :: k in r ==>
      exists i :: 0 <= i < |hm| && hm[i].field == k && Get(row, hm[i].cell) != Undefined
    decreases |hm|
  {
    if hm == [] then map[]
    else
      var init := hm[..|hm| - 1];
      var rest := ProcessRow(init, row, codec);
      assert forall i :: 0 <= i < |init| ==> hm[i] == init[i];
      ApplyColumn(rest, hm[|hm| - 1], row, codec)
  }

  /** Every key of a record is a database field named by the mapping. */
  lemma RecordKeysAreMappedFields(headers: seq<Cell>, row: seq<Cell>, codec: DateCodec)
    ensures forall k :: k in ProcessRow(HeaderColumns(headers), row, codec) ==> k in HeaderMapping.Values
  {
    var hm := HeaderColumns(headers);
    forall k | k in ProcessRow(hm, row, codec)
      ensures k in HeaderMapping.Values
    {
      var i :| 0 <= i < |hm| && hm[i].field == k && Get(row, hm[i].cell) != Undefined;
      assert hm[i] in hm;
    }
  }

  // ---------------------------------------------------------------------
  // Each field depends only on its own columns

  /** The mapped columns that feed `field`, in order. */
  function ColumnsOf(hm: seq<Column>, field: string): (cs: seq<Column>)
    ensures forall c :: c in cs <==> c in hm && c.field == field
    decreases |hm|
  {
    if hm == [] then []
    else
      var init := hm[..|hm| - 1];
      assert hm == init + [hm[|hm| - 1]];
      ColumnsOf(init, field) + (if hm[|hm| - 1].field == field then [hm[|hm| - 1]] else [])
  }

  /** Two records agree at `k`. */
  predicate AgreeAt(r1: Record, r2: Record, k: string) {
    (k in r1 <==> k in r2) && (k in r1 ==> r1[k] == r2[k])
  }

  /** A column's effect on its field depends only on what the record held
      there before. */
  lemma ApplyColumnLocal(r1: Record, r2: Record, col: Column, row: seq<Cell>, codec: DateCodec, k: string)
    requires AgreeAt(r1, r2, k)
    ensures AgreeAt(ApplyColumn(r1, col, row, codec), ApplyColumn(r2, col, row, codec), k)
  {
  }

  /** A field of the record is decided by the columns mapped to it alone. */
  lemma {:induction false} FieldIsolation(hm: seq<Column>, row: seq<Cell>, codec: DateCodec, k: string)
    ensures AgreeAt(ProcessRow(hm, row, codec), ProcessRow(ColumnsOf(hm, k), row, codec), k)
    decreases |hm|
  {
    if hm != [] {
      var init := hm[..|hm| - 1];
      var last := hm[|hm| - 1];
      FieldIsolation(init, row, codec, k);
      var cs := ColumnsOf(init, k);
      var full := ProcessRow(init, row, codec);
      var only := ProcessRow(cs, row, codec);
      assert ProcessRow(hm, row, codec) == ApplyColumn(full, last, row, codec);
      if last.field == k {
        var ext := cs + [last];
        assert ColumnsOf(hm, k) == ext;
        assert ext[..|ext| - 1] == cs;
        assert ProcessRow(ext, row, codec) == ApplyColumn(only, last, row, codec);
        ApplyColumnLocal(full, only, last, row, codec, k);
      } else {
        assert ColumnsOf(hm, k) == cs;
      }
    }
  }

  /** The last mapped column of `field` whose cell is defined. */
  function LastDefined(hm: seq<Column>, row: seq<Cell>, field: string): Option<string>
    decreases |hm|
  {
    if hm == [] then None
    else
      var last := hm[|hm| - 1];
      if last.field == field && Get(row, last.cell) != Undefined then Some(last.cell)
      else LastDefined(hm[..|hm| - 1], row, field)
  }

  /** A field without special handling holds the value of its last defined
      column, and is absent when every one of its cells is undefined. */
  lemma {:induction false} VerbatimFieldLastWins(hm: seq<Column>, row: seq<Cell>, codec: DateCodec, field: string)
    requires field != OrderMonth && field != OrderAmount && field != ProductType
    ensures var r := ProcessRow(hm, row, codec);
      match LastDefined(hm, row, field)
      case None => field !in r
      case Some(c) => field in r && r[field] == Plain(Get(row, c))
    decreases |hm|
  {
    if hm != [] {
      VerbatimFieldLastWins(hm[..|hm| - 1], row, codec, field);
    }
  }

  /** `product_type` only ever holds copied or combined cell values. */
  lemma {:induction false} ProductTypeIsPlain(hm: seq<Column>, row: seq<Cell>, codec: DateCodec)
    ensures ProductType in ProcessRow(hm, row, codec) ==> ProcessRow(hm, row, codec)[ProductType].Plain?
    decreases |hm|
  {
    if hm != [] {
      ProductTypeIsPlain(hm[..|hm| - 1], row, codec);
    }
  }

  /** Processing two columns is applying the first, then the second. */
  lemma TwoColumns(row: seq<Cell>, codec: DateCodec, model: string, size: string)
    ensures var first := ApplyColumn(map[], Column(model, ProductType), row, codec);
      ProcessRow([Column(model, ProductType), Column(size, ProductType)], row, codec) ==
      ApplyColumn(first, Column(size, ProductType), row, codec)
  {
    var cs := [Column(model, ProductType), Column(size, ProductType)];
    assert cs[..1] == [Column(model, ProductType)];
    assert cs[..1][..0] == [];
  }

  /** With a 车型 column before a 尺寸 column and a truthy first value, the
      record's `product_type` is "first-second". */
  lemma ProductTypeCombined(hm: seq<Column>, row: seq<Cell>, codec: DateCodec, model: string, size: string)
    requires ColumnsOf(hm, ProductType) == [Column(model, ProductType), Column(size, ProductType)]
    requires Truthy(Get(row, model)) && Get(row, size) != Undefined
    ensures ProductType in ProcessRow(hm, row, codec)
    ensures ProcessRow(hm, row, codec)[ProductType] ==
      Plain(Str(ToText(Get(row, model)) + "-" + ToText(Get(row, size))))
  {
    FieldIsolation(hm, row, codec, ProductType);
    TwoColumns(row, codec, model, size);
  }

  /** When the first product column is falsy, the second value replaces it. */
  lemma ProductTypeFirstFalsy(hm: seq<Column>, row: seq<Cell>, codec: DateCodec, model: string, size: string)
    requires ColumnsOf(hm, ProductType) == [Column(model, ProductType), Column(size, ProductType)]
    requires !Truthy(Get(row, model)) && Get(row, size) != Undefined
    ensures ProductType in ProcessRow(hm, row, codec)
    ensures ProcessRow(hm, row, codec)[ProductType] == Plain(Get(row, size))
  {
    FieldIsolation(hm, row, codec, ProductType);
    TwoColumns(row, codec, model, size);
  }

  // ---------------------------------------------------------------------
  // The upload

  /** `handleFileUpload`: the first chosen file's name, the sheet the
      workbook reader produced from it, and the insert's error message. */
  function Import(fileNames: seq<string>, sheet: seq<seq<Cell>>, insertError: Option<string>, codec: DateCodec)
    : (o: Outcome)
    ensures fileNames == [] <==> o.NoFile?
    ensures fileNames != [] && !IsExcelFileName(fileNames[0]) <==> o.RejectedFormat?
    ensures fileNames != [] && IsExcelFileName(fileNames[0]) && |sheet| < 2 ==> o == Failed(NoDataMessage)
    ensures fileNames != [] && IsExcelFileName(fileNames[0]) && |sheet| >= 2 && insertError.Some? ==>
      o == Failed(InsertFailedPrefix + insertError.value)
    ensures o.Imported? ==>
      IsExcelFileName(fileNames[0]) && insertError.None? &&
      |o.records| == |sheet| - 1 &&
      forall i :: 0 <= i < |o.records| ==> o.records[i] == ProcessRow(HeaderColumns(sheet[0]), sheet[i + 1], codec)
  {
    if fileNames == [] then NoFile
    else if !IsExcelFileName(fileNames[0]) then RejectedFormat
    else if |sheet| < 2 then Failed(NoDataMessage)
    else
      var hm := HeaderColumns(sheet[0]);
      var rows := sheet[1..];
      var records := seq(|rows|, i requires 0 <= i < |rows| => ProcessRow(hm, rows[i], codec));
      match insertError
      case Some(message) => Failed(InsertFailedPrefix + message)
      case None => Imported(records)
  }

  /** A successful import reports as many rows as the sheet has below its
      header. */
  lemma ImportCountsDataRows(fileNames: seq<string>, sheet: seq<seq<Cell>>, codec: DateCodec)
    requires fileNames != [] && IsExcelFileName(fileNames[0]) && |sheet| >= 2
    ensures Import(fileNames, sheet, None, codec).Imported?
    ensures OutcomeToast(Import(fileNames, sheet, None, codec)) ==
      Some(Toast(SuccessTitle, ImportedMessage(|sheet| - 1), false))
  {
  }
}

=== FILE: js_core.dfy ===
/** Shared vocabulary for the dashboard model: optional values, the JavaScript
    scalar values that flow through the pages (spreadsheet cells, JSON scalars),
    JavaScript truthiness, and the decimal text of integers as a template
    string renders them. */
module JsCore {

  datatype Option<+T> = None | Some(value: T) {
    function GetOr(default: T): T {
      match this
      case Some(v) => v
      case None => default
    }
  }

  /** A JavaScript scalar. Numbers are modelled as integers. */
  datatype Value = Undefined | Null | Bool(b: bool) | Num(n: int) | Str(s: string)

  /** JavaScript truthiness of a scalar: `undefined`, `null`, `false`, `0`
      and the empty string are falsy. */
  predicate Truthy(v: Value) {
    match v
    case Undefined => false
    case Null => false
    case Bool(b) => b
    case Num(n) => n != 0
    case Str(s) => s != ""
  }

  /** `x || fallback` for an optional string column. */
  function OrString(x: Option<string>, fallback: string): (r: string)
    ensures x.Some? && x.value != "" ==> r == x.value
    ensures x.None? || x.value == "" ==> r == fallback
  {
    if x.Some? && x.value != "" then x.value else fallback
  }

  // ---------------------------------------------------------------------
  // Decimal text of integers

  predicate IsDigit(c: char) {
    '0' <= c <= '9'
  }

  predicate AllDigits(s: string) {
    forall i :: 0 <= i < |s| ==> IsDigit(s[i])
  }

  function DigitChar(d: nat): (c: char)
    requires d < 10
    ensures IsDigit(c)
  {
    "0123456789"[d]
  }

  function DigitValue(c: char): (d: nat)
    requires IsDigit(c)
    ensures d < 10
  {
    c as int - '0' as int
  }

  lemma DigitValueOfChar(d: nat)
    requires d < 10
    ensures DigitValue(DigitChar(d)) == d
  {
    assert "0123456789"[d] as int == '0' as int + d by {
      assert "0123456789"[0] == '0' && "0123456789"[1] == '1' && "0123456789"[2] == '2';
      assert "0123456789"[3] == '3' && "0123456789"[4] == '4' && "0123456789"[5] == '5';
      assert "0123456789"[6] == '6' && "0123456789"[7] == '7' && "0123456789"[8] == '8';
      assert "0123456789"[9] == '9';
    }
  }

  /** The shortest decimal text of `n` (no leading zero). */
  function NatToString(n: nat): (s: string)
    ensures |s| >= 1 && AllDigits(s)
    ensures s[0] == '0' ==> n == 0
    decreases n
  {
    if n < 10 then [DigitChar(n)]
    else
      var p := NatToString(n / 10);
      assert p[0] != '0';
      p + [DigitChar(n % 10)]
  }

  /** `${i}` for an integer `i`. */
  function IntToString(i: int): (s: string)
    ensures |s| >= 1
    ensures i >= 0 ==> AllDigits(s)
    ensures i < 0 ==> s[0] == '-' && AllDigits(s[1..])
  {
    if i < 0 then "-" + NatToString(-i) else NatToString(i)
  }

  /** Reads a non-empty run of decimal digits back as a number. */
  function DigitsValue(s: string): nat
    requires AllDigits(s)
    decreases |s|
  {
    if s == [] then 0 else DigitsValue(s[..|s| - 1]) * 10 + DigitValue(s[|s| - 1])
  }

  lemma {:induction false} NatToStringRoundTrip(n: nat)
    ensures DigitsValue(NatToString(n)) == n
    decreases n
  {
    var s := NatToString(n);
    if n < 10 {
      assert s[..|s| - 1] == [];
      DigitValueOfChar(n);
    } else {
      var p := NatToString(n / 10);
      assert s == p + [DigitChar(n % 10)];
      assert s[..|s| - 1] == p;
      NatToStringRoundTrip(n / 10);
      DigitValueOfChar(n % 10);
    }
  }

  /** Distinct numbers have distinct decimal texts. */
  lemma NatToStringInjective(m: nat, n: nat)
    requires NatToString(m) == NatToString(n)
    ensures m == n
  {
    NatToStringRoundTrip(m);
    NatToStringRoundTrip(n);
  }

  /** `${v}` for a scalar, as a JavaScript template string renders it. */
  function ToText(v: Value): (s: string)
    ensures v.Str? ==> s == v.s
  {
    match v
    case Undefined => "undefined"
    case Null => "null"
    case Bool(b) => if b then "true" else "false"
    case Num(n) => IntToString(n)
    case Str(s) => s
  }

  // ---------------------------------------------------------------------
  // String predicates used by the pages

  /** `s.endsWith(suffix)`. */
  predicate EndsWith(s: string, suffix: string) {
    |suffix| <= |s| && s[|s| - |suffix|..] == suffix
  }

  /** `needle` occurs at position `i` of `hay`. */
  predicate OccursAt(hay: string, needle: string, i: int) {
    0 <= i && i + |needle| <= |hay| && hay[i..i + |needle|] == needle
  }

  /** `hay.includes(needle)`, scanning left to right. */
  function Includes(hay: string, needle: string): (r: bool)
    ensures r <==> exists i :: OccursAt(hay, needle, i)
    decreases |hay|
  {
    if |needle| <= |hay| && hay[..|needle|] == needle then
      assert OccursAt(hay, needle, 0);
      true
    else if hay == [] then
      assert forall i :: !OccursAt(hay, needle, i);
      false
    else
      var r := Includes(hay[1..], needle);
      if r then
        var i :| OccursAt(hay[1..], needle, i);
        assert hay[1..][i..i + |needle|] == hay[i + 1..i + 1 + |needle|];
        assert OccursAt(hay, needle, i + 1);
        true
      else
        assert forall i :: OccursAt(hay, needle, i) ==> i > 0 && OccursAt(hay[1..], needle, i - 1) by {
          forall i | OccursAt(hay, needle, i)
            ensures i > 0 && OccursAt(hay[1..], needle, i - 1)
          {
            assert hay[1..][i - 1..i - 1 + |needle|] == hay[i..i + |needle|];
          }
        }
        false
  }

  /** `toLowerCase()` restricted to the ASCII letters. */
  function LowerChar(c: char): (d: char)
    ensures 'A' <= c <= 'Z' ==> d as int == c as int + 32
    ensures !('A' <= c <= 'Z') ==> d == c
  {
    if 'A' <= c <= 'Z' then (c as int + 32) as char else c
  }

  function ToLower(s: string): (r: string)
    ensures |r| == |s|
    ensures forall i :: 0 <= i < |s| ==> r[i] == LowerChar(s[i])
  {
    seq(|s|, i requires 0 <= i < |s| => LowerChar(s[i]))
  }

  lemma ToLowerIdempotent(s: string)
    ensures ToLower(ToLower(s)) == ToLower(s)
  {
  }
}

=== FILE: orders.dfy ===
/** The orders page (src/pages/Orders.tsx): an uploaded sheet whose header
    row already names database fields is whitelisted row by row and
    inserted; the table formats amounts and months. Storage, the public URL
    fetch and the workbook reader are left to the caller; a row arrives as
    the object `sheet_to_json` builds, keyed by header text. */
module Orders {
  import opened JsCore
  import opened Spreadsheet

  /** `validFields`. */
  const ValidFields: set<string> := {
    "customer_code", "customer_name", "customer_short_name",
    "country", "type", "product_type", "size", "material",
    "order_month", "sales_person", "order_amount"}

  const OrderMonth: string := "order_month"

  const StorageFailedMessage: string := "文件上传失败"
  const NoUrlMessage: string := "无法获取文件URL"
  const InsertFailedMessage: string := "数据插入失败"

  /** The `order_month` conversion: a truthy number or string becomes a
      `YYYY-MM-DD` date, and anything that cannot be converted becomes
      `null`. */
  function OrderMonthField(v: Value, codec: DateCodec): (f: Field)
    requires Truthy(v)
    ensures v.Num? && codec.fromSerial(v.n).Some? ==> f == IsoDate(codec.fromSerial(v.n).value)
    ensures v.Str? && codec.fromText(v.s).Some? ==> f == IsoDate(codec.fromText(v.s).value)
    ensures f.IsoDate? || f == Plain(Null)
  {
    match v
    case Num(n) =>
      (match codec.fromSerial(n)
       case Some(d) => IsoDate(d)
       case None => Plain(Null))
    case Str(s) =>
      (match codec.fromText(s)
       case Some(d) => IsoDate(d)
       case None => Plain(Null))
    case _ => Plain(Null)
  }

  /** The value written under one whitelisted key. */
  function OrderField(key: string, v: Value, codec: DateCodec): Field {
    if key == OrderMonth && Truthy(v) then OrderMonthField(v, codec) else Plain(v)
  }

  /** `validData` for one row. */
  function ProcessOrderRow(row: map<string, Value>, codec: DateCodec): (r: Record)
    ensures r.Keys == row.Keys * ValidFields
    ensures forall k :: k in r && k != OrderMonth ==> r[k] == Plain(row[k])
    ensures OrderMonth in r && !Truthy(row[OrderMonth]) ==> r[OrderMonth] == Plain(row[OrderMonth])
    ensures OrderMonth in r && Truthy(row[OrderMonth]) ==>
      (r[OrderMonth].IsoDate? || r[OrderMonth] == Plain(Null))
    ensures OrderMonth in r && Truthy(row[OrderMonth]) && !row[OrderMonth].Num? && !row[OrderMonth].Str? ==>
      r[OrderMonth] == Plain(Null)
    ensures OrderMonth in r && row[OrderMonth].Str? && row[OrderMonth].s != "" ==>
      (codec.fromText(row[OrderMonth].s).None? ==> r[OrderMonth] == Plain(Null))
  {
    map k | k in row.Keys && k in ValidFields :: OrderField(k, row[k], codec)
  }

  /** Columns outside the whitelist have no influence on the record. */
  lemma UnknownColumnsIgnored(row1: map<string, Value>, row2: map<string, Value>, codec: DateCodec)
    requires forall k :: k in ValidFields ==> (k in row1 <==> k in row2) && (k in row1 ==> row1[k] == row2[k])
    ensures ProcessOrderRow(row1, codec) == ProcessOrderRow(row2, codec)
  {
  }

  /** A row already carrying a date string keeps it when the parser reads it
      back to itself. */
  lemma IsoMonthKept(row: map<string, Value>, codec: DateCodec, d: string)
    requires OrderMonth in row && row[OrderMonth] == Str(d) && d != ""
    requires codec.fromText(d) == Some(d)
    ensures ProcessOrderRow(row, codec)[OrderMonth] == IsoDate(d)
  {
  }

  /** `${timestamp}-${file.name}`: the storage object's name. */
  function StorageName(timestamp: nat, fileName: string): (r: string)
    ensures |r| > |fileName| && r[|r| - |fileName|..] == fileName
    ensures IsDigit(r[0]) && '-' in r
  {
    var digits := NatToString(timestamp);
    var r := digits + "-" + fileName;
    assert r[|digits|] == '-';
    r
  }

  /** Position of the first '-' in `r`, or `|r|` when there is none. */
  function DashIndex(r: string): (k: nat)
    ensures k <= |r|
    ensures k < |r| ==> r[k] == '-'
    ensures forall j :: 0 <= j < k ==> r[j] != '-'
    decreases |r|
  {
    if r == [] || r[0] == '-' then 0 else 1 + DashIndex(r[1..])
  }

  /** Reads a storage name back as its upload time and file name: the
      digits before the first '-' and the text after it. */
  function ParseStorageName(r: string): (p: Option<(nat, string)>)
    ensures p.Some? ==> '-' in r
  {
    var k := DashIndex(r);
    if k == 0 || k == |r| || !AllDigits(r[..k]) then None
    else Some((DigitsValue(r[..k]), r[k + 1..]))
  }

  /** The storage name gives back the upload time and the file name, since
      the timestamp's digits hold no '-'. */
  lemma StorageNameRoundTrip(timestamp: nat, fileName: string)
    ensures ParseStorageName(StorageName(timestamp, fileName)) == Some((timestamp, fileName))
  {
    var digits := NatToString(timestamp);
    var r := StorageName(timestamp, fileName);
    assert r == digits + "-" + fileName;
    assert forall j :: 0 <= j < |digits| ==> r[j] == digits[j] && IsDigit(r[j]);
    assert r[|digits|] == '-';
    assert DashIndex(r) == |digits|;
    assert r[..|digits|] == digits;
    assert r[|digits| + 1..] == fileName;
    NatToStringRoundTrip(timestamp);
  }

  /** Two uploads share a storage name only with the same time and file name. */
  lemma StorageNameInjective(t1: nat, n1: string, t2: nat, n2: string)
    requires StorageName(t1, n1) == StorageName(t2, n2)
    ensures t1 == t2 && n1 == n2
  {
    StorageNameRoundTrip(t1, n1);
    StorageNameRoundTrip(t2, n2);
  }

  /** `jsonData.map(...)`: one record per sheet row. */
  function ProcessRows(rows: seq<map<string, Value>>, codec: DateCodec): (rs: seq<Record>)
    ensures |rs| == |rows|
    ensures forall i :: 0 <= i < |rows| ==> rs[i] == ProcessOrderRow(rows[i], codec)
  {
    seq(|rows|, i requires 0 <= i < |rows| => ProcessOrderRow(rows[i], codec))
  }

  /** `handleFileUpload`: the chosen files' names, whether the storage upload
      failed, whether a public URL came back, the error message if fetching
      or reading the stored file threw, the rows read from it, and whether
      the insert failed. */
  function Upload(fileNames: seq<string>, storageFailed: bool, urlAvailable: bool, readError: Option<string>,
                  rows: seq<map<string, Value>>, insertFailed: bool, codec: DateCodec): (o: Outcome)
    ensures fileNames == [] <==> o.NoFile?
    ensures fileNames != [] && !IsExcelFileName(fileNames[0]) <==> o.RejectedFormat?
    ensures fileNames != [] && IsExcelFileName(fileNames[0]) && storageFailed ==> o == Failed(StorageFailedMessage)
    ensures fileNames != [] && IsExcelFileName(fileNames[0]) && !storageFailed && urlAvailable && readError.Some? ==>
      o == Failed(readError.value)
    ensures o.Imported? ==>
      !storageFailed && urlAvailable && readError.None? && !insertFailed && o.records == ProcessRows(rows, codec)
    ensures o.Failed? ==>
      o.message == StorageFailedMessage || o.message == NoUrlMessage || o.message == InsertFailedMessage ||
      readError == Some(o.message)
  {
    if fileNames == [] then NoFile
    else if !IsExcelFileName(fileNames[0]) then RejectedFormat
    else if storageFailed then Failed(StorageFailedMessage)
    else if !urlAvailable then Failed(NoUrlMessage)
    else if readError.Some? then Failed(readError.value)
    else if insertFailed then Failed(InsertFailedMessage)
    else Imported(ProcessRows(rows, codec))
  }

  /** Every imported record keeps only whitelisted fields. */
  lemma ImportedRecordsWhitelisted(fileNames: seq<string>, rows: seq<map<string, Value>>, codec: DateCodec)
    requires fileNames != [] && IsExcelFileName(fileNames[0])
    ensures var o := Upload(fileNames, false, true, None, rows, false, codec);
      o.Imported? && forall i :: 0 <= i < |o.records| ==> o.records[i].Keys <= ValidFields
  {
  }

  // ---------------------------------------------------------------------
  // Table formatting

  /** `formatCurrency`: `undefined` shows nothing; anything else goes to the
      `zh-CN` CNY currency formatter. */
  function FormatCurrency(amount: Value, currency: Value -> string): (text: string)
    ensures amount == Undefined ==> text == ""
    ensures amount != Undefined ==> text == currency(amount)
  {
    if amount == Undefined then "" else currency(amount)
  }

  /** `formatDate`: an empty or missing date shows nothing; otherwise the
      `zh-CN` year-and-month formatter's text, or the input itself when
      formatting throws. */
  function FormatDate(dateString: Option<string>, yearMonth: string -> Option<string>): (text: string)
    ensures dateString.None? || dateString.value == "" ==> text == ""
    ensures dateString.Some? && dateString.value != "" && yearMonth(dateString.value).None? ==>
      text == dateString.value
    ensures dateString.Some? && dateString.value != "" && yearMonth(dateString.value).Some? ==>
      text == yearMonth(dateString.value).value
  {
    match dateString
    case None => ""
    case Some(s) =>
      if s == "" then ""
      else match yearMonth(s)
        case Some(t) => t
        case None => s
  }
}

=== FILE: paginated_visit_records.dfy ===
/** The `paginated-visit-records` edge function: one page of the visit log,
    most recent visit first, with the total count and the page count. The
    table and the outcome of its records query are inputs. */
module Paginator {
  import opened JsCore
  import opened VisitData
  import StableSort
  import Seqs

  const DefaultPageSize: int := 10
  const DefaultPage: int := 1

  /** An incoming request. A parameter is `None` when it is absent or empty
      (`get(name) || default`); present parameters are already numbers. */
  datatype PageRequest = PageRequest(httpMethod: string, pageSize: Option<int>, page: Option<int>)

  /** The `visit_records` table and, if the records query fails, its message. */
  datatype Store = Store(rows: seq<VisitRecord>, failure: Option<string>)

  /** Why the records query failed: the database reported an error, or it
      refused a negative offset or a negative limit. */
  datatype QueryError = QueryFailed(message: string) | RangeRejected(offset: int, limit: int)

  datatype Response =
    | Preflight
    | PageBody(records: seq<VisitRecord>, totalCount: nat, currentPage: int,
               totalPages: Option<int>, pageSize: int)
    | ServerError(error: QueryError)

  function Status(r: Response): (code: int)
    ensures code == 500 <==> r.ServerError?
  {
    if r.ServerError? then 500 else 200
  }

  // ---------------------------------------------------------------------
  // ORDER BY visit_start_time DESC (PostgreSQL puts NULLs first)

  predicate HasStart(r: VisitRecord) {
    r.visitStartTime.Some?
  }

  predicate NoStart(r: VisitRecord) {
    r.visitStartTime.None?
  }

  function StartKey(r: VisitRecord): int {
    r.visitStartTime.GetOr(0)
  }

  /** `a` may be listed before `b`: `a` has no start time, or both have one
      and `a`'s is not earlier. */
  predicate ListedBefore(a: VisitRecord, b: VisitRecord) {
    a.visitStartTime.None? ||
    (b.visitStartTime.Some? && a.visitStartTime.value >= b.visitStartTime.value)
  }

  ghost predicate StartDescending(xs: seq<VisitRecord>) {
    forall i, j :: 0 <= i < j < |xs| ==> ListedBefore(xs[i], xs[j])
  }

  /** Undated records followed by dated ones sorted latest first are in
      query order. */
  lemma UndatedThenSorted(undated: seq<VisitRecord>, sorted: seq<VisitRecord>)
    requires forall x :: x in undated ==> NoStart(x)
    requires forall x :: x in sorted ==> HasStart(x)
    requires StableSort.NonIncreasing(sorted, StartKey)
    ensures StartDescending(undated + sorted)
  {
    var r := undated + sorted;
    forall i, j | 0 <= i < j < |r|
      ensures ListedBefore(r[i], r[j])
    {
      if i < |undated| {
        assert r[i] in undated;
      } else {
        assert r[i] == sorted[i - |undated|] && r[j] == sorted[j - |undated|];
        assert r[j] in sorted && r[i] in sorted;
      }
    }
  }

  /** The sorted dated records are all dated. */
  lemma SortedAreDated(rows: seq<VisitRecord>)
    ensures forall x :: x in StableSort.SortDesc(Seqs.Filter(rows, HasStart), StartKey) ==> HasStart(x)
  {
    var dated := Seqs.Filter(rows, HasStart);
    var sorted := StableSort.SortDesc(dated, StartKey);
    StableSort.SortDescPermutes(dated, StartKey);
    forall x | x in sorted
      ensures HasStart(x)
    {
      assert x in multiset(sorted);
    }
  }

  /** One admissible result of the ordered query (ties keep table order). */
  function OrderByStartDesc(rows: seq<VisitRecord>): (r: seq<VisitRecord>)
    ensures multiset(r) == multiset(rows)
    ensures |r| == |rows|
    ensures StartDescending(r)
  {
    var undated := Seqs.Filter(rows, NoStart);
    var dated := Seqs.Filter(rows, HasStart);
    var sorted := StableSort.SortDesc(dated, StartKey);
    Seqs.FilterPartition(rows, NoStart, HasStart);
    StableSort.SortDescPermutes(dated, StartKey);
    StableSort.SortDescSorted(dated, StartKey);
    SortedAreDated(rows);
    UndatedThenSorted(undated, sorted);
    var r := undated + sorted;
    assert |r| == |rows| by {
      assert |multiset(r)| == |multiset(rows)|;
    }
    r
  }

  // ---------------------------------------------------------------------
  // Range arithmetic

  /** `(page - 1) * pageSize`: the first row of a page. From page 1 on it is
      a valid offset, and below page 1 it is negative. */
  function Offset(page: int, pageSize: int): (o: int)
    ensures page >= 1 && pageSize >= 0 ==> o >= 0
    ensures page < 1 && pageSize > 0 ==> o < 0
    ensures page == 1 ==> o == 0
  {
    (page - 1) * pageSize
  }

  /** The records `ordered[from..to]` inclusive, clipped to the table, as the
      `offset=from` / `limit=to-from+1` query returns them. */
  function Window(ordered: seq<VisitRecord>, from: nat, limit: nat): (r: seq<VisitRecord>)
    ensures |r| <= limit
    ensures from >= |ordered| ==> r == []
    ensures from < |ordered| ==> r == ordered[from..if from + limit <= |ordered| then from + limit else |ordered|]
  {
    if from >= |ordered| then []
    else ordered[from..if from + limit <= |ordered| then from + limit else |ordered|]
  }

  /** `.range(from, to)` on the ordered table. */
  function RangeQuery(store: Store, from: int, to: int): (r: Result)
    ensures store.failure.Some? ==> r == Err(QueryFailed(store.failure.value))
    ensures r.Ok? ==> 0 <= from && from <= to + 1 &&
                      r.records == Window(OrderByStartDesc(store.rows), from, to - from + 1)
  {
    if store.failure.Some? then Err(QueryFailed(store.failure.value))
    else if from < 0 || to - from + 1 < 0 then Err(RangeRejected(from, to - from + 1))
    else Ok(Window(OrderByStartDesc(store.rows), from, to - from + 1))
  }

  datatype Result = Ok(records: seq<VisitRecord>) | Err(error: QueryError)

  /** `Math.ceil(n / d)` for a non-zero divisor. */
  function CeilDiv(n: int, d: int): (q: int)
    requires d != 0
    ensures d > 0 ==> (q - 1) * d < n <= q * d
    ensures d < 0 ==> q * d <= n < (q - 1) * d
  {
    if d > 0 then (n + d - 1) / d else (-n - d - 1) / (-d)
  }

  /** `Math.ceil(totalCount / pageSize)`; `None` stands for the non-finite
      quotient of a zero page size, which JSON serializes as `null`. */
  function TotalPages(totalCount: nat, pageSize: int): (t: Option<int>)
    ensures t.None? <==> pageSize == 0
    ensures pageSize > 0 && totalCount == 0 ==> t == Some(0)
    ensures pageSize > 0 && totalCount > 0 ==>
      t.Some? && t.value >= 1 && (t.value - 1) * pageSize < totalCount <= t.value * pageSize
  {
    if pageSize == 0 then None else Some(CeilDiv(totalCount, pageSize))
  }

  // ---------------------------------------------------------------------
  // The handler

  function Handle(req: PageRequest, store: Store): (r: Response)
    ensures req.httpMethod == "OPTIONS" ==> r == Preflight
    ensures req.httpMethod != "OPTIONS" && store.failure.Some? ==>
      r == ServerError(QueryFailed(store.failure.value))
    ensures r.PageBody? ==>
      r.pageSize == req.pageSize.GetOr(DefaultPageSize) &&
      r.currentPage == req.page.GetOr(DefaultPage) &&
      r.totalCount == |store.rows| &&
      r.totalPages == TotalPages(|store.rows|, r.pageSize) &&
      |r.records| <= r.pageSize &&
      Offset(r.currentPage, r.pageSize) >= 0 && r.pageSize >= 0 &&
      r.records == Window(OrderByStartDesc(store.rows), Offset(r.currentPage, r.pageSize), r.pageSize)
  {
    if req.httpMethod == "OPTIONS" then Preflight
    else
      var pageSize := req.pageSize.GetOr(DefaultPageSize);
      var page := req.page.GetOr(DefaultPage);
      var offset := Offset(page, pageSize);
      match RangeQuery(store, offset, offset + pageSize - 1)
      case Err(e) => ServerError(e)
      case Ok(records) =>
        PageBody(records, |store.rows|, page, TotalPages(|store.rows|, pageSize), pageSize)
  }

  // ---------------------------------------------------------------------
  // Properties

  /** A preflight request answers without looking at the table. */
  lemma PreflightIgnoresStore(req: PageRequest, s1: Store, s2: Store)
    requires req.httpMethod == "OPTIONS"
    ensures Handle(req, s1) == Handle(req, s2) == Preflight
    ensures Status(Handle(req, s1)) == 200
  {
  }

  /** With valid parameters and a working database every request is served. */
  lemma {:induction false} ValidRequestServed(req: PageRequest, store: Store)
    requires req.httpMethod != "OPTIONS" && store.failure.None?
    requires req.page.GetOr(DefaultPage) >= 1 && req.pageSize.GetOr(DefaultPageSize) >= 0
    ensures Handle(req, store).PageBody?
  {
    var pageSize := req.pageSize.GetOr(DefaultPageSize);
    var page := req.page.GetOr(DefaultPage);
    assert Offset(page, pageSize) >= 0 by {
      assert page - 1 >= 0;
    }
  }

  /** A page number below 1 makes the offset negative; the database rejects
      the range and the caller gets a 500. */
  lemma PageBelowOneFails(req: PageRequest, store: Store)
    requires req.httpMethod != "OPTIONS" && store.failure.None?
    requires req.page.GetOr(DefaultPage) < 1 && req.pageSize.GetOr(DefaultPageSize) > 0
    ensures Handle(req, store).ServerError?
    ensures Status(Handle(req, store)) == 500
  {
    assert Offset(req.page.GetOr(DefaultPage), req.pageSize.GetOr(DefaultPageSize)) < 0;
  }

  /** Page `page` of the ordered list in the page-sweep view. */
  function PageOf(ordered: seq<VisitRecord>, page: nat, pageSize: nat): seq<VisitRecord>
    requires page >= 1
  {
    Window(ordered, (page - 1) * pageSize, pageSize)
  }

  /** Pages `1..k` laid end to end. */
  function Sweep(ordered: seq<VisitRecord>, k: nat, pageSize: nat): seq<VisitRecord>
    decreases k
  {
    if k == 0 then [] else Sweep(ordered, k - 1, pageSize) + PageOf(ordered, k, pageSize)
  }

  function Min(a: int, b: int): int {
    if a <= b then a else b
  }

  lemma {:induction false} SweepIsPrefix(ordered: seq<VisitRecord>, k: nat, pageSize: nat)
    ensures Sweep(ordered, k, pageSize) == ordered[..Min(k * pageSize, |ordered|)]
    decreases k
  {
    if k > 0 {
      SweepIsPrefix(ordered, k - 1, pageSize);
      var lo := Min((k - 1) * pageSize, |ordered|);
      var hi := Min(k * pageSize, |ordered|);
      assert (k - 1) * pageSize <= k * pageSize;
      assert ordered[..lo] + ordered[lo..hi] == ordered[..hi];
    }
  }

  /** Concatenating pages 1..totalPages gives back the whole ordered list. */
  lemma SweepCoversAll(ordered: seq<VisitRecord>, pageSize: nat)
    requires pageSize > 0
    ensures Sweep(ordered, TotalPages(|ordered|, pageSize).value, pageSize) == ordered
  {
    var t := TotalPages(|ordered|, pageSize).value;
    SweepIsPrefix(ordered, t, pageSize);
    assert t * pageSize >= |ordered|;
  }

  /** Every page past the last is empty. */
  lemma PastLastPageEmpty(ordered: seq<VisitRecord>, page: nat, pageSize: nat)
    requires pageSize > 0 && page > TotalPages(|ordered|, pageSize).value
    ensures PageOf(ordered, page, pageSize) == []
  {
    var t := TotalPages(|ordered|, pageSize).value;
    assert (page - 1) * pageSize >= t * pageSize by {
      assert page - 1 >= t;
    }
  }

  /** A request past the last page gets an empty page and the same totals. */
  lemma PastLastPageResponse(req: PageRequest, store: Store)
    requires req.httpMethod != "OPTIONS" && store.failure.None?
    requires req.pageSize.GetOr(DefaultPageSize) > 0
    requires req.page.GetOr(DefaultPage) > TotalPages(|store.rows|, req.pageSize.GetOr(DefaultPageSize)).value
    requires req.page.GetOr(DefaultPage) >= 1
    ensures Handle(req, store).PageBody? && Handle(req, store).records == []
    ensures Handle(req, store).totalCount == |store.rows|
  {
    var ps := req.pageSize.GetOr(DefaultPageSize);
    var page := req.page.GetOr(DefaultPage);
    ValidRequestServed(req, store);
    PastLastPageEmpty(OrderByStartDesc(store.rows), page, ps);
  }

  /** 25 visits in pages of 10: three pages, the third holding 5 visits and
      the fourth none. */
  lemma TwentyFiveInPagesOfTen(rows: seq<VisitRecord>)
    requires |rows| == 25
    ensures TotalPages(|rows|, 10) == Some(3)
    ensures |Handle(PageRequest("GET", Some(10), Some(3)), Store(rows, None)).records| == 5
    ensures Handle(PageRequest("GET", Some(10), Some(4)), Store(rows, None)).records == []
  {
  }
}

=== FILE: product_search.dfy ===
/** The search box, category popover and active-filter chip of the product
    list (src/components/Products/ProductSearchFilters.tsx), as transitions of
    the page's filter state and the conditions under which each control is
    drawn. */
module ProductSearch {
  import opened JsCore
  import opened Ui
  import opened ProductsPage

  /** What the user can do with the controls. */
  datatype Event =
    | Typed(text: string)              // the search input changes
    | ClearSearch                      // the X inside the search box
    | SelectCategory(category: string) // a category badge in the popover
    | RemoveChip                       // the X on the active-filter chip
    | ClearAll                         // the clear-filters button

  function Step(s: FilterState, e: Event): (r: FilterState)
    ensures e.Typed? ==> r == s.(searchQuery := e.text)
    ensures e.ClearSearch? ==> r.searchQuery == "" && r.categoryFilter == s.categoryFilter && r.isFiltering == s.isFiltering
    ensures e.SelectCategory? ==> r.categoryFilter == Some(e.category) && r.isFiltering && r.searchQuery == s.searchQuery
    ensures e.RemoveChip? ==> r.categoryFilter.None? && r.isFiltering == s.isFiltering && r.searchQuery == s.searchQuery
    ensures e.ClearAll? ==> r == NoFilters
  {
    match e
    case Typed(text) => s.(searchQuery := text)
    case ClearSearch => s.(searchQuery := "")
    case SelectCategory(c) => s.(categoryFilter := Some(c), isFiltering := true)
    case RemoveChip => s.(categoryFilter := None)
    case ClearAll => ClearFilters(s)
  }

  /** `categoryFilter` as the JavaScript value the component tests. */
  function CategoryValue(s: FilterState): Value {
    if s.categoryFilter.Some? then Str(s.categoryFilter.value) else Null
  }

  /** The X inside the search box is drawn (`searchQuery && ...`). */
  function SearchClearVisible(s: FilterState): (b: bool)
    ensures b <==> Truthy(Str(s.searchQuery))
  {
    s.searchQuery != ""
  }

  /** The clear-filters button is drawn (`(searchQuery || categoryFilter) && ...`). */
  function ClearFiltersVisible(s: FilterState): (b: bool)
    ensures b <==> Truthy(Str(s.searchQuery)) || Truthy(CategoryValue(s))
  {
    s.searchQuery != "" || CategoryActive(s.categoryFilter)
  }

  /** The active-filter chip is drawn (`isFiltering && categoryFilter && ...`). */
  function ChipVisible(s: FilterState): (b: bool)
    ensures b <==> s.isFiltering && Truthy(CategoryValue(s))
  {
    s.isFiltering && CategoryActive(s.categoryFilter)
  }

  /** Which controls each action leaves drawn: the clear-filters button
      accompanies the search X and the chip; clearing everything hides all
      three; choosing a named category shows the chip; typing shows the
      search X exactly for a non-empty query. */
  lemma VisibilityAfterStep(s: FilterState, c: string, text: string)
    ensures SearchClearVisible(s) ==> ClearFiltersVisible(s)
    ensures ChipVisible(s) ==> ClearFiltersVisible(s)
    ensures var r := Step(s, ClearAll);
      !SearchClearVisible(r) && !ClearFiltersVisible(r) && !ChipVisible(r)
    ensures c != "" ==> ChipVisible(Step(s, SelectCategory(c))) && ClearFiltersVisible(Step(s, SelectCategory(c)))
    ensures SearchClearVisible(Step(s, Typed(text))) <==> text != ""
  {
  }

  /** The style of a category's badge in the popover. */
  function CategoryBadge(s: FilterState, category: string): (v: BadgeVariant)
    ensures v == Default <==> s.categoryFilter == Some(category)
    ensures v != Default ==> v == Outline
  {
    if s.categoryFilter == Some(category) then Default else Outline
  }

  /** Among distinct categories at most one badge is highlighted, and it is
      the selected one. */
  lemma OneHighlightedBadge(s: FilterState, categories: seq<string>, i: int, j: int)
    requires forall a, b :: 0 <= a < b < |categories| ==> categories[a] != categories[b]
    requires 0 <= i < |categories| && 0 <= j < |categories|
    requires CategoryBadge(s, categories[i]) == Default && CategoryBadge(s, categories[j]) == Default
    ensures i == j && s.categoryFilter == Some(categories[i])
  {
  }

  /** The user's actions, applied in order. */
  function Run(s: FilterState, events: seq<Event>): FilterState
    decreases |events|
  {
    if events == [] then s else Run(Step(s, events[0]), events[1..])
  }

  /** A chosen category is always accompanied by the filtering flag. */
  predicate Consistent(s: FilterState) {
    s.categoryFilter.Some? ==> s.isFiltering
  }

  /** From any consistent state (the initial state is one), the controls never reach a chosen category
      without the filtering flag; so the chip shows whenever a non-empty
      category is chosen, and the clear-filters button shows with it. */
  lemma {:induction false} RunStaysConsistent(s: FilterState, events: seq<Event>)
    requires Consistent(s)
    ensures Consistent(Run(s, events))
    ensures CategoryActive(Run(s, events).categoryFilter) ==>
      ChipVisible(Run(s, events)) && ClearFiltersVisible(Run(s, events))
    decreases |events|
  {
    if events != [] {
      RunStaysConsistent(Step(s, events[0]), events[1..]);
    }
  }

  /** The clear-search X touches only the query. */
  lemma ClearSearchKeepsCategory(s: FilterState)
    ensures Step(s, ClearSearch).categoryFilter == s.categoryFilter
    ensures !SearchClearVisible(Step(s, ClearSearch))
    ensures ChipVisible(Step(s, ClearSearch)) == ChipVisible(s)
  {
  }

  /** Removing the chip hides it but keeps the filtering flag set. */
  lemma RemoveChipHidesChip(s: FilterState)
    ensures !ChipVisible(Step(s, RemoveChip))
    ensures Step(s, RemoveChip).isFiltering == s.isFiltering
    ensures ClearFiltersVisible(Step(s, RemoveChip)) <==> s.searchQuery != ""
  {
  }
}

=== FILE: product_utils.dfy ===
/** The product page's aggregates: the summary cards and the category chart
    (src/components/Products/ProductUtils.tsx). */
module ProductUtils {
  import opened JsCore
  import opened Catalog
  import Seqs

  /** `if (x) total += x`: a null or zero column adds nothing. */
  function OrZero(x: Option<int>): (n: int)
    ensures x.Some? ==> n == x.value
    ensures x.None? ==> n == 0
  {
    if x.Some? && x.value != 0 then x.value else 0
  }

  function SalesOf(p: ProductData): int { OrZero(p.sales) }
  function ProfitOf(p: ProductData): int { OrZero(p.profit) }
  function MarginOf(p: ProductData): int { OrZero(p.margin) }

  /** The margin is truthy: present and non-zero. */
  predicate HasMargin(p: ProductData) {
    p.margin.Some? && p.margin.value != 0
  }

  /** Sum of `f` over the products. */
  function SumBy(ps: seq<ProductData>, f: ProductData -> int): int
    decreases |ps|
  {
    if ps == [] then 0 else SumBy(ps[..|ps| - 1], f) + f(ps[|ps| - 1])
  }

  /** Number of products with a truthy margin. */
  function MarginCount(ps: seq<ProductData>): (n: nat)
    ensures n <= |ps|
    decreases |ps|
  {
    if ps == [] then 0 else MarginCount(ps[..|ps| - 1]) + (if HasMargin(ps[|ps| - 1]) then 1 else 0)
  }

  /** `Math.round(a / b)` for a positive divisor: the nearest integer, halves
      rounded up. */
  function RoundDiv(a: int, b: int): (r: int)
    requires b > 0
    ensures 2 * b * r - b <= 2 * a < 2 * b * r + b
  {
    (2 * a + b) / (2 * b)
  }

  /** The summary as the cards show it. */
  function Summarize(ps: seq<ProductData>): (s: Summary)
    ensures s.totalProducts == |ps|
    ensures s.totalRevenue == SumBy(ps, SalesOf) && s.totalProfit == SumBy(ps, ProfitOf)
    ensures MarginCount(ps) == 0 ==> s.avgMargin == 0
    ensures MarginCount(ps) > 0 ==>
      var c := MarginCount(ps);
      2 * c * s.avgMargin - c <= 2 * SumBy(ps, MarginOf) < 2 * c * s.avgMargin + c
  {
    var c := MarginCount(ps);
    Summary(SumBy(ps, SalesOf), |ps|, SumBy(ps, ProfitOf),
            if c > 0 then RoundDiv(SumBy(ps, MarginOf), c) else 0)
  }

  /** `calculateSummary`: one pass over the products. */
  method CalculateSummary(products: seq<ProductData>) returns (s: Summary)
    ensures s == Summarize(products)
  {
    var totalRevenue := 0;
    var totalProfit := 0;
    var totalMargin := 0;
    var marginCount := 0;
    var i := 0;
    while i < |products|
      invariant 0 <= i <= |products|
      invariant totalRevenue == SumBy(products[..i], SalesOf)
      invariant totalProfit == SumBy(products[..i], ProfitOf)
      invariant totalMargin == SumBy(products[..i], MarginOf)
      invariant marginCount == MarginCount(products[..i])
    {
      var p := products[i];
      assert products[..i + 1][..i] == products[..i];
      if p.sales.Some? && p.sales.value != 0 {
        totalRevenue := totalRevenue + p.sales.value;
      }
      if p.profit.Some? && p.profit.value != 0 {
        totalProfit := totalProfit + p.profit.value;
      }
      if p.margin.Some? && p.margin.value != 0 {
        totalMargin := totalMargin + p.margin.value;
        marginCount := marginCount + 1;
      }
      i := i + 1;
    }
    assert products[..i] == products;
    var avgMargin := if marginCount > 0 then RoundDiv(totalMargin, marginCount) else 0;
    s := Summary(totalRevenue, |products|, totalProfit, avgMargin);
  }

  /** A product without a truthy margin leaves the average margin as it was. */
  lemma MarginlessProductKeepsAverage(ps: seq<ProductData>, p: ProductData)
    requires !HasMargin(p)
    ensures Summarize(ps + [p]).avgMargin == Summarize(ps).avgMargin
    ensures Summarize(ps + [p]).totalProducts == Summarize(ps).totalProducts + 1
  {
    assert (ps + [p])[..|ps|] == ps;
  }

  // ---------------------------------------------------------------------
  // Category distribution

  /** Sum of the chart's values. */
  function Total(es: seq<CategoryCount>): nat
    decreases |es|
  {
    if es == [] then 0 else Total(es[..|es| - 1]) + es[|es| - 1].value
  }

  /** The chart lists `keys` in order with their counts among `cats`, so its
      total is the count over the keys. */
  lemma {:induction false} TotalIsCountOver(es: seq<CategoryCount>, cats: seq<string>, keys: seq<string>)
    requires |es| == |keys|
    requires forall j :: 0 <= j < |es| ==> es[j].name == keys[j] && es[j].value == Seqs.Count(cats, keys[j])
    ensures Total(es) == Seqs.CountOver(cats, keys)
    decreases |es|
  {
    if es != [] {
      TotalIsCountOver(es[..|es| - 1], cats, keys[..|keys| - 1]);
    }
  }

  lemma DistinctOfExtension(xs: seq<string>, y: string)
    ensures Seqs.Distinct(xs + [y]) ==
      if y in Seqs.Distinct(xs) then Seqs.Distinct(xs) else Seqs.Distinct(xs) + [y]
  {
    assert (xs + [y])[..|xs|] == xs;
  }

  lemma CountOfExtension(xs: seq<string>, y: string, x: string)
    ensures Seqs.Count(xs + [y], x) == Seqs.Count(xs, x) + (if y == x then 1 else 0)
  {
    assert (xs + [y])[..|xs|] == xs;
  }

  /** The counting object after visiting `cats` in order: its keys in
      insertion order and its counts. */
  method Tally(cats: seq<string>) returns (order: seq<string>, counts: map<string, nat>)
    ensures order == Seqs.Distinct(cats)
    ensures forall c :: c in counts <==> c in order
    ensures forall c :: c in counts ==> counts[c] == Seqs.Count(cats, c)
  {
    order := [];
    counts := map[];
    var i := 0;
    while i < |cats|
      invariant 0 <= i <= |cats|
      invariant order == Seqs.Distinct(cats[..i])
      invariant forall c :: c in counts <==> c in order
      invariant forall c :: c in counts ==> counts[c] == Seqs.Count(cats[..i], c)
    {
      var c := cats[i];
      var seen := cats[..i];
      assert cats[..i + 1] == seen + [c];
      DistinctOfExtension(seen, c);
      forall k
        ensures Seqs.Count(seen + [c], k) == Seqs.Count(seen, k) + (if c == k then 1 else 0)
      {
        CountOfExtension(seen, c, k);
      }
      if c !in counts {
        counts := counts[c := 1];
        order := order + [c];
      } else {
        counts := counts[c := counts[c] + 1];
      }
      i := i + 1;
    }
    assert cats[..i] == cats;
  }

  /** `calculateCategoryDistribution`: a counting object filled in product
      order, then listed by key in insertion order. */
  method CalculateCategoryDistribution(products: seq<ProductData>) returns (r: seq<CategoryCount>)
    ensures |r| == |Seqs.Distinct(Categories(products))|
    ensures forall j :: 0 <= j < |r| ==>
      r[j].name == Seqs.Distinct(Categories(products))[j] &&
      r[j].value == Seqs.Count(Categories(products), r[j].name) && r[j].value >= 1
    ensures forall c :: c in Categories(products) <==> exists j :: 0 <= j < |r| && r[j].name == c
    ensures Total(r) == |products|
  {
    var cats := Categories(products);
    var order, counts := Tally(cats);
    r := seq(|order|, j requires 0 <= j < |order| => CategoryCount(order[j], counts[order[j]]));
    forall c | c in cats
      ensures exists j :: 0 <= j < |r| && r[j].name == c
    {
      var j := Seqs.FirstIndex(order, c);
      assert r[j].name == c;
    }
    TotalIsCountOver(r, cats, order);
    Seqs.CountOverDistinct(cats);
  }
}

=== FILE: products_page.dfy ===
/** The product page's list filtering, category list, drilldown guard and
    filter reset (src/pages/Products.tsx). */
module ProductsPage {
  import opened JsCore
  import opened Catalog
  import Seqs

  /** The search and category filter the page keeps in React state. */
  datatype FilterState = FilterState(searchQuery: string, categoryFilter: Option<string>, isFiltering: bool)

  /** The whole page state that the handlers touch. */
  datatype PageState = PageState(
    filters: FilterState,
    selectedProduct: Option<ProductData>,
    isDrilldownOpen: bool)

  /** A category filter is in force: set and non-empty. */
  predicate CategoryActive(f: Option<string>) {
    f.Some? && f.value != ""
  }

  /** The product has a truthy name and a truthy category. */
  predicate Listable(p: ProductData) {
    p.name != "" && p.category != ""
  }

  /** Case-insensitive substring match of the query on the name or category. */
  predicate MatchesSearch(p: ProductData, query: string) {
    Includes(ToLower(p.name), ToLower(query)) || Includes(ToLower(p.category), ToLower(query))
  }

  predicate MatchesCategory(p: ProductData, categoryFilter: Option<string>) {
    CategoryActive(categoryFilter) ==> p.category == categoryFilter.value
  }

  /** The predicate passed to `products.filter`: a product without a name or
      a category is never shown; otherwise the query must match, and an
      active category filter must equal the product's category. */
  function Shown(p: ProductData, query: string, categoryFilter: Option<string>): (b: bool)
    ensures (p.name == "" || p.category == "") ==> !b
    ensures Listable(p) && !CategoryActive(categoryFilter) ==> (b <==> MatchesSearch(p, query))
    ensures Listable(p) && CategoryActive(categoryFilter) ==>
      (b <==> MatchesSearch(p, query) && p.category == categoryFilter.value)
  {
    Listable(p) && MatchesSearch(p, query) && MatchesCategory(p, categoryFilter)
  }

  /** `filteredProducts`. */
  function FilteredProducts(products: seq<ProductData>, query: string, categoryFilter: Option<string>)
    : (r: seq<ProductData>)
    ensures Seqs.IsSubsequence(r, products)
    ensures forall p :: p in r <==> p in products && Shown(p, query, categoryFilter)
    ensures forall p :: p in r ==> p.name != "" && p.category != ""
    ensures CategoryActive(categoryFilter) ==> forall p :: p in r ==> p.category == categoryFilter.value
  {
    Seqs.FilterIsSubsequence(products, p => Shown(p, query, categoryFilter));
    Seqs.Filter(products, p => Shown(p, query, categoryFilter))
  }

  /** The list keeps every copy of a shown product and no copy of any other. */
  lemma FilteredProductsCounts(products: seq<ProductData>, query: string, categoryFilter: Option<string>, p: ProductData)
    ensures multiset(FilteredProducts(products, query, categoryFilter))[p] ==
      if Shown(p, query, categoryFilter) then multiset(products)[p] else 0
  {
    Seqs.FilterCounts(products, q => Shown(q, query, categoryFilter), p);
  }

  /** The empty string occurs in every string. */
  lemma EmptyQueryMatches(p: ProductData)
    ensures MatchesSearch(p, "")
  {
    assert OccursAt(ToLower(p.name), ToLower(""), 0);
  }

  /** With no query and no category, every product with a name and a category
      is listed. */
  lemma NoFilterListsAllListable(products: seq<ProductData>)
    ensures forall p :: p in FilteredProducts(products, "", None) <==> p in products && Listable(p)
  {
    forall p | p in products && Listable(p)
      ensures p in FilteredProducts(products, "", None)
    {
      EmptyQueryMatches(p);
    }
  }

  /** Matching ignores the letter case of the query. */
  lemma QueryCaseIgnored(products: seq<ProductData>, query: string, categoryFilter: Option<string>)
    ensures FilteredProducts(products, ToLower(query), categoryFilter) ==
            FilteredProducts(products, query, categoryFilter)
  {
    ToLowerIdempotent(query);
    Seqs.FilterExtensional(products, p => Shown(p, ToLower(query), categoryFilter),
                           p => Shown(p, query, categoryFilter));
  }

  predicate NonEmpty(c: string) {
    c != ""
  }

  /** `Array.from(new Set(products.filter(p => p.category).map(p => p.category)))`. */
  function UniqueCategories(products: seq<ProductData>): (r: seq<string>)
    ensures Seqs.NoDuplicates(r)
    ensures "" !in r
    ensures forall c :: c in r <==> c != "" && exists p :: p in products && p.category == c
  {
    var cats := Seqs.Filter(Categories(products), NonEmpty);
    var r := Seqs.Distinct(cats);
    assert forall c :: c in r <==> c in cats;
    assert forall c :: c in Categories(products) <==> exists p :: p in products && p.category == c by {
      forall c | c in Categories(products)
        ensures exists p :: p in products && p.category == c
      {
        var i :| 0 <= i < |products| && Categories(products)[i] == c;
        assert products[i] in products;
      }
    }
    r
  }

  /** `uniqueCategories` lists each category at the place of its first
      non-empty occurrence. */
  lemma UniqueCategoriesFirstSeenOrder(products: seq<ProductData>)
    ensures var cats := Seqs.Filter(Categories(products), NonEmpty);
      var r := UniqueCategories(products);
      forall i, j :: 0 <= i < j < |r| ==> Seqs.FirstIndex(cats, r[i]) < Seqs.FirstIndex(cats, r[j])
  {
    Seqs.DistinctFirstSeenOrder(Seqs.Filter(Categories(products), NonEmpty));
  }

  /** `handleProductClick`: only a product with a name and a category opens
      the drilldown. */
  function HandleProductClick(s: PageState, p: ProductData): (r: PageState)
    ensures Listable(p) ==> r.selectedProduct == Some(p) && r.isDrilldownOpen && r.filters == s.filters
    ensures !Listable(p) ==> r == s
  {
    if p.name != "" && p.category != "" then s.(selectedProduct := Some(p), isDrilldownOpen := true)
    else s
  }

  const NoFilters: FilterState := FilterState("", None, false)

  /** `clearFilters`. */
  function ClearFilters(f: FilterState): (r: FilterState)
    ensures r.searchQuery == "" && r.categoryFilter.None? && !r.isFiltering
  {
    NoFilters
  }

  /** After clearing, every listable product is shown again. */
  lemma ClearFiltersShowsAll(products: seq<ProductData>, f: FilterState)
    ensures var c := ClearFilters(f);
      forall p :: p in FilteredProducts(products, c.searchQuery, c.categoryFilter) <==> p in products && Listable(p)
  {
    NoFilterListsAllListable(products);
  }
}

=== FILE: seqs.dfy ===
/** Sequence vocabulary shared by the pages: order-preserving filtering,
    subsequences, occurrence counts and first-seen de-duplication (what
    `Array.from(new Set(xs))` and a counting object's key order produce). */
module Seqs {

  /** `xs.filter(keep)`. */
  function Filter<T(==,!new)>(xs: seq<T>, keep: T -> bool): (r: seq<T>)
    ensures |r| <= |xs|
    ensures forall x :: x in r <==> x in xs && keep(x)
    decreases |xs|
  {
    if xs == [] then []
    else
      var rest := Filter(xs[..|xs| - 1], keep);
      var last := xs[|xs| - 1];
      assert xs == xs[..|xs| - 1] + [last];
      if keep(last) then rest + [last] else rest
  }

  /** Filtering keeps every occurrence of a kept element and none of the
      others. */
  lemma {:induction false} FilterCounts<T(!new)>(xs: seq<T>, keep: T -> bool, x: T)
    ensures multiset(Filter(xs, keep))[x] == if keep(x) then multiset(xs)[x] else 0
    decreases |xs|
  {
    if xs != [] {
      var init := xs[..|xs| - 1];
      var last := xs[|xs| - 1];
      FilterCounts(init, keep, x);
      assert xs == init + [last];
      assert multiset(xs) == multiset(init) + multiset{last};
    }
  }

  /** Filtering a concatenation filters each part. */
  lemma {:induction false} FilterConcat<T(!new)>(xs: seq<T>, ys: seq<T>, keep: T -> bool)
    ensures Filter(xs + ys, keep) == Filter(xs, keep) + Filter(ys, keep)
    decreases |ys|
  {
    if ys == [] {
      assert xs + ys == xs;
    } else {
      var init := ys[..|ys| - 1];
      var last := ys[|ys| - 1];
      var tail := if keep(last) then [last] else [];
      calc {
        Filter(xs + ys, keep);
        { assert (xs + ys)[..|xs + ys| - 1] == xs + init;
          assert (xs + ys)[|xs + ys| - 1] == last; }
        Filter(xs + init, keep) + tail;
        { FilterConcat(xs, init, keep); }
        (Filter(xs, keep) + Filter(init, keep)) + tail;
        Filter(xs, keep) + (Filter(init, keep) + tail);
      }
    }
  }

  /** Filtering depends only on which elements the predicate keeps. */
  lemma {:induction false} FilterExtensional<T(!new)>(xs: seq<T>, f: T -> bool, g: T -> bool)
    requires forall x :: f(x) == g(x)
    ensures Filter(xs, f) == Filter(xs, g)
    decreases |xs|
  {
    if xs != [] {
      FilterExtensional(xs[..|xs| - 1], f, g);
    }
  }

  /** A filter that rejects nothing returns its input. */
  lemma {:induction false} FilterKeepsAll<T(!new)>(xs: seq<T>, keep: T -> bool)
    requires forall i :: 0 <= i < |xs| ==> keep(xs[i])
    ensures Filter(xs, keep) == xs
    decreases |xs|
  {
    if xs != [] {
      FilterKeepsAll(xs[..|xs| - 1], keep);
      assert xs == xs[..|xs| - 1] + [xs[|xs| - 1]];
    }
  }

  /** Filtering twice by the same predicate is filtering once. */
  lemma FilterIdempotent<T(!new)>(xs: seq<T>, keep: T -> bool)
    ensures Filter(Filter(xs, keep), keep) == Filter(xs, keep)
  {
    var r := Filter(xs, keep);
    assert forall i :: 0 <= i < |r| ==> r[i] in r;
    FilterKeepsAll(r, keep);
  }

  /** Splitting by a predicate and its negation loses and invents nothing. */
  lemma {:induction false} FilterPartition<T(!new)>(xs: seq<T>, keep: T -> bool, drop: T -> bool)
    requires forall x :: drop(x) == !keep(x)
    ensures multiset(Filter(xs, keep)) + multiset(Filter(xs, drop)) == multiset(xs)
    decreases |xs|
  {
    if xs != [] {
      var init := xs[..|xs| - 1];
      FilterPartition(init, keep, drop);
      assert xs == init + [xs[|xs| - 1]];
    }
  }

  /** `sub` is obtained from `xs` by deleting elements, keeping the order. */
  predicate IsSubsequence<T(==)>(sub: seq<T>, xs: seq<T>)
    decreases |xs|
  {
    if sub == [] then true
    else if xs == [] then false
    else if sub[|sub| - 1] == xs[|xs| - 1] then IsSubsequence(sub[..|sub| - 1], xs[..|xs| - 1])
    else IsSubsequence(sub, xs[..|xs| - 1])
  }

  lemma {:induction false} FilterIsSubsequence<T(!new)>(xs: seq<T>, keep: T -> bool)
    ensures IsSubsequence(Filter(xs, keep), xs)
    decreases |xs|
  {
    if xs != [] {
      var init := xs[..|xs| - 1];
      var last := xs[|xs| - 1];
      FilterIsSubsequence(init, keep);
      var r := Filter(xs, keep);
      if keep(last) {
        assert r == Filter(init, keep) + [last];
        assert r[..|r| - 1] == Filter(init, keep);
      } else {
        SubsequenceOfPrefix(Filter(init, keep), init, last);
      }
    }
  }

  /** A subsequence of a prefix is a subsequence of the whole. */
  lemma {:induction false} SubsequenceOfPrefix<T>(sub: seq<T>, xs: seq<T>, x: T)
    requires IsSubsequence(sub, xs)
    ensures IsSubsequence(sub, xs + [x])
    decreases |xs|, 1
  {
    if sub != [] {
      var ys := xs + [x];
      assert ys[..|ys| - 1] == xs;
      if sub[|sub| - 1] == x {
        SubsequenceDropLast(sub, xs);
      }
    }
  }

  lemma {:induction false} SubsequenceDropLast<T>(sub: seq<T>, xs: seq<T>)
    requires sub != [] && IsSubsequence(sub, xs)
    ensures IsSubsequence(sub[..|sub| - 1], xs)
    decreases |xs|, 0
  {
    var init := xs[..|xs| - 1];
    if sub[|sub| - 1] == xs[|xs| - 1] {
      SubsequenceOfPrefix(sub[..|sub| - 1], init, xs[|xs| - 1]);
      assert init + [xs[|xs| - 1]] == xs;
    } else {
      SubsequenceDropLast(sub, init);
      SubsequenceOfPrefix(sub[..|sub| - 1], init, xs[|xs| - 1]);
      assert init + [xs[|xs| - 1]] == xs;
    }
  }

  /** Number of occurrences of `x` in `xs`. */
  function Count<T(==)>(xs: seq<T>, x: T): (n: nat)
    ensures n <= |xs|
    ensures n == 0 <==> x !in xs
    decreases |xs|
  {
    if xs == [] then 0
    else
      assert xs == xs[..|xs| - 1] + [xs[|xs| - 1]];
      Count(xs[..|xs| - 1], x) + (if xs[|xs| - 1] == x then 1 else 0)
  }

  predicate NoDuplicates<T(==)>(xs: seq<T>) {
    forall i, j :: 0 <= i < j < |xs| ==> xs[i] != xs[j]
  }

  /** Position of the first occurrence of `x` in `xs`. */
  function FirstIndex<T(==)>(xs: seq<T>, x: T): (i: nat)
    requires x in xs
    ensures i < |xs| && xs[i] == x
    ensures forall j :: 0 <= j < i ==> xs[j] != x
  {
    if xs[0] == x then 0 else 1 + FirstIndex(xs[1..], x)
  }

  /** The distinct elements of `xs` in order of first appearance. */
  function Distinct<T(==,!new)>(xs: seq<T>): (r: seq<T>)
    ensures NoDuplicates(r)
    ensures forall x :: x in r <==> x in xs
    decreases |xs|
  {
    if xs == [] then []
    else
      var init := xs[..|xs| - 1];
      var last := xs[|xs| - 1];
      assert xs == init + [last];
      var d := Distinct(init);
      if last in d then d else d + [last]
  }

  lemma FirstIndexOfExtension<T>(xs: seq<T>, y: T, x: T)
    requires x in xs
    ensures FirstIndex(xs + [y], x) == FirstIndex(xs, x)
  {
    var i := FirstIndex(xs, x);
    var k := FirstIndex(xs + [y], x);
    assert (xs + [y])[i] == x;
    assert xs[k] == x || k == |xs|;
  }

  /** `Distinct` lists elements in the order of their first occurrences. */
  lemma {:induction false} DistinctFirstSeenOrder<T(!new)>(xs: seq<T>)
    ensures forall i, j :: 0 <= i < j < |Distinct(xs)| ==>
      FirstIndex(xs, Distinct(xs)[i]) < FirstIndex(xs, Distinct(xs)[j])
    decreases |xs|
  {
    if xs != [] {
      var init := xs[..|xs| - 1];
      var last := xs[|xs| - 1];
      assert xs == init + [last];
      DistinctFirstSeenOrder(init);
      var d := Distinct(init);
      forall x | x in d
        ensures FirstIndex(xs, x) == FirstIndex(init, x)
      {
        FirstIndexOfExtension(init, last, x);
      }
      if last !in d {
        var k := FirstIndex(xs, last);
        assert k == |init| by {
          assert xs[|init|] == last;
          assert forall j :: 0 <= j < |init| ==> xs[j] == init[j];
        }
      }
    }
  }

  /** `sum over x in keys of Count(xs, x)`. */
  function CountOver<T(==)>(xs: seq<T>, keys: seq<T>): nat
    decreases |keys|
  {
    if keys == [] then 0 else CountOver(xs, keys[..|keys| - 1]) + Count(xs, keys[|keys| - 1])
  }

  /** Appending `y` to `xs` adds one to the total exactly when `y` is a key. */
  lemma {:induction false} CountOverExtend<T>(xs: seq<T>, y: T, keys: seq<T>)
    requires NoDuplicates(keys)
    ensures CountOver(xs + [y], keys) == CountOver(xs, keys) + (if y in keys then 1 else 0)
    decreases |keys|
  {
    if keys != [] {
      var init := keys[..|keys| - 1];
      var k := keys[|keys| - 1];
      assert keys == init + [k];
      CountOverExtend(xs, y, init);
      var ys := xs + [y];
      assert ys[..|ys| - 1] == xs;
      assert y in keys <==> y in init || y == k;
      assert !(y in init && y == k);
    }
  }

  /** Counting every distinct element accounts for every element once. */
  lemma {:induction false} CountOverDistinct<T(!new)>(xs: seq<T>)
    ensures CountOver(xs, Distinct(xs)) == |xs|
    decreases |xs|
  {
    if xs != [] {
      var init := xs[..|xs| - 1];
      var last := xs[|xs| - 1];
      assert xs == init + [last];
      var d := Distinct(init);
      CountOverDistinct(init);
      CountOverExtend(init, last, d);
      if last !in d {
        var d' := d + [last];
        assert d'[..|d'| - 1] == d;
        assert Count(init, last) == 0;
        assert Count(xs, last) == 1;
      }
    }
  }
}

=== FILE: spreadsheet.dfy ===
/** What the two spreadsheet imports share: the file-name guard, the values
    a processed cell can take, the date conversions they delegate to, and
    the outcome of one upload with the toast it raises. */
module Spreadsheet {
  import opened JsCore

  /** `name.endsWith('.xlsx') || name.endsWith('.xls')`. */
  predicate IsExcelFileName(name: string) {
    EndsWith(name, ".xlsx") || EndsWith(name, ".xls")
  }

  /** The guard accepts exactly the names made of some stem and an Excel
      extension. */
  lemma ExcelFileNameShape(name: string)
    ensures IsExcelFileName(name) <==>
      exists stem: string :: name == stem + ".xlsx" || name == stem + ".xls"
  {
    if IsExcelFileName(name) {
      if EndsWith(name, ".xlsx") {
        assert name == name[..|name| - 5] + ".xlsx";
      } else {
        assert name == name[..|name| - 4] + ".xls";
      }
    }
    forall stem: string | name == stem + ".xlsx" || name == stem + ".xls"
      ensures IsExcelFileName(name)
    {
      if name == stem + ".xlsx" {
        assert name[|name| - 5..] == ".xlsx";
      } else {
        assert name[|name| - 4..] == ".xls";
      }
    }
  }

  /** A processed cell: a value copied from the sheet, a `YYYY-MM-DD` date,
      or the cleaned text of an amount that `parseFloat` then reads. */
  datatype Field = Plain(v: Value) | IsoDate(date: string) | Amount(text: string)

  type Record = map<string, Field>

  /** The date conversions the imports delegate to `Date`: from an Excel
      serial day number and from free text, each to the `YYYY-MM-DD` part of
      `toISOString()`. `None` stands for a conversion that throws or yields an
      invalid date. */
  datatype DateCodec = DateCodec(fromSerial: int -> Option<string>, fromText: string -> Option<string>)

  /** How one upload ends. */
  datatype Outcome =
    | NoFile                      // nothing chosen: the handler returns at once
    | RejectedFormat              // not an Excel file name
    | Failed(message: string)     // an error thrown and caught
    | Imported(records: seq<Record>)

  datatype Toast = Toast(title: string, description: string, destructive: bool)

  const FormatErrorTitle: string := "文件格式错误"
  const FormatErrorDescription: string := "请上传Excel文件（.xlsx或.xls格式）"
  const SuccessTitle: string := "上传成功"
  const FailureTitle: string := "上传失败"

  /** "成功导入 n 条订单数据". */
  function ImportedMessage(n: nat): string {
    "成功导入 " + NatToString(n) + " 条订单数据"
  }

  /** The toast an outcome raises. */
  function OutcomeToast(o: Outcome): (t: Option<Toast>)
    ensures t.None? <==> o.NoFile?
    ensures t.Some? ==> (t.value.destructive <==> !o.Imported?)
    ensures o.Failed? ==> t == Some(Toast(FailureTitle, o.message, true))
    ensures o.Imported? ==> t == Some(Toast(SuccessTitle, ImportedMessage(|o.records|), false))
  {
    match o
    case NoFile => None
    case RejectedFormat => Some(Toast(FormatErrorTitle, FormatErrorDescription, true))
    case Failed(message) => Some(Toast(FailureTitle, message, true))
    case Imported(records) => Some(Toast(SuccessTitle, ImportedMessage(|records|), false))
  }

  /** The success message names the number of imported rows. */
  lemma ImportedMessageNamesCount(m: nat, n: nat)
    requires ImportedMessage(m) == ImportedMessage(n)
    ensures m == n
  {
    var pre := "成功导入 ";
    var post := " 条订单数据";
    var a := NatToString(m);
    var b := NatToString(n);
    assert ImportedMessage(m) == pre + a + post;
    assert ImportedMessage(n) == pre + b + post;
    assert |a| == |b|;
    assert a == ImportedMessage(m)[|pre|..|pre| + |a|];
    assert b == ImportedMessage(n)[|pre|..|pre| + |b|];
    NatToStringInjective(m, n);
  }
}

=== FILE: stable_sort.dfy ===
/** The ordering `xs.sort((a, b) => key(b) - key(a))` performs: a stable sort by
    a numeric key, largest first. JavaScript's `Array.prototype.sort` is stable,
    so elements with equal keys keep their input order. */
module StableSort {

  ghost predicate NonIncreasing<T>(xs: seq<T>, key: T -> int) {
    forall i, j :: 0 <= i < j < |xs| ==> key(xs[i]) >= key(xs[j])
  }

  /** The elements of `xs` whose key is `v`, in order. */
  function WithKey<T>(xs: seq<T>, key: T -> int, v: int): seq<T>
    decreases |xs|
  {
    if xs == [] then []
    else (if key(xs[0]) == v then [xs[0]] else []) + WithKey(xs[1..], key, v)
  }

  /** Places `x` in front of the first element whose key does not exceed its own. */
  function Insert<T>(x: T, xs: seq<T>, key: T -> int): seq<T>
    decreases |xs|
  {
    if xs == [] || key(xs[0]) <= key(x) then [x] + xs
    else [xs[0]] + Insert(x, xs[1..], key)
  }

  /** Insertion sort, inserting each element in front of the sorted rest. */
  function SortDesc<T>(xs: seq<T>, key: T -> int): seq<T>
    decreases |xs|
  {
    if xs == [] then [] else Insert(xs[0], SortDesc(xs[1..], key), key)
  }

  // ---------------------------------------------------------------------
  // Sortedness

  lemma {:induction false} InsertSorted<T>(x: T, xs: seq<T>, key: T -> int)
    requires NonIncreasing(xs, key)
    ensures NonIncreasing(Insert(x, xs, key), key)
    ensures |Insert(x, xs, key)| == |xs| + 1
    ensures Insert(x, xs, key)[0] == x || (xs != [] && Insert(x, xs, key)[0] == xs[0])
    decreases |xs|
  {
    if xs != [] && key(xs[0]) > key(x) {
      InsertSorted(x, xs[1..], key);
      var r := Insert(x, xs[1..], key);
      assert forall i :: 0 <= i < |r| ==> key(xs[0]) >= key(r[i]) by {
        forall i | 0 <= i < |r|
          ensures key(xs[0]) >= key(r[i])
        {
          InsertElements(x, xs[1..], key, i);
        }
      }
    }
  }

  /** Every element of an insertion is `x` or an element of `xs`. */
  lemma {:induction false} InsertElements<T>(x: T, xs: seq<T>, key: T -> int, i: int)
    requires 0 <= i < |xs| + 1
    ensures |Insert(x, xs, key)| == |xs| + 1
    ensures Insert(x, xs, key)[i] == x || Insert(x, xs, key)[i] in xs
    decreases |xs|
  {
    if xs != [] && key(xs[0]) > key(x) {
      InsertElements(x, xs[1..], key, if i > 0 then i - 1 else 0);
    }
  }

  lemma {:induction false} SortDescSorted<T>(xs: seq<T>, key: T -> int)
    ensures NonIncreasing(SortDesc(xs, key), key)
    ensures |SortDesc(xs, key)| == |xs|
    decreases |xs|
  {
    if xs != [] {
      SortDescSorted(xs[1..], key);
      InsertSorted(xs[0], SortDesc(xs[1..], key), key);
    }
  }

  // ---------------------------------------------------------------------
  // Permutation

  lemma {:induction false} InsertPermutes<T>(x: T, xs: seq<T>, key: T -> int)
    ensures multiset(Insert(x, xs, key)) == multiset{x} + multiset(xs)
    decreases |xs|
  {
    if xs != [] && key(xs[0]) > key(x) {
      InsertPermutes(x, xs[1..], key);
      assert xs == [xs[0]] + xs[1..];
    }
  }

  lemma {:induction false} SortDescPermutes<T>(xs: seq<T>, key: T -> int)
    ensures multiset(SortDesc(xs, key)) == multiset(xs)
    decreases |xs|
  {
    if xs != [] {
      SortDescPermutes(xs[1..], key);
      InsertPermutes(xs[0], SortDesc(xs[1..], key), key);
      assert xs == [xs[0]] + xs[1..];
    }
  }

  // ---------------------------------------------------------------------
  // Stability

  lemma {:induction false} InsertStable<T>(x: T, xs: seq<T>, key: T -> int, v: int)
    ensures WithKey(Insert(x, xs, key), key, v) ==
            (if key(x) == v then [x] else []) + WithKey(xs, key, v)
    decreases |xs|
  {
    var r := Insert(x, xs, key);
    if xs == [] || key(xs[0]) <= key(x) {
      assert r[1..] == xs;
    } else {
      InsertStable(x, xs[1..], key, v);
      assert r[1..] == Insert(x, xs[1..], key);
      assert WithKey(xs, key, v) == (if key(xs[0]) == v then [xs[0]] else []) + WithKey(xs[1..], key, v);
    }
  }

  /** Among equal keys the sorted order is the input order. */
  lemma {:induction false} SortDescStable<T>(xs: seq<T>, key: T -> int, v: int)
    ensures WithKey(SortDesc(xs, key), key, v) == WithKey(xs, key, v)
    decreases |xs|
  {
    if xs != [] {
      SortDescStable(xs[1..], key, v);
      InsertStable(xs[0], SortDesc(xs[1..], key), key, v);
    }
  }
}

=== FILE: ui.dfy ===
/** The badge styles the pages choose between. */
module Ui {
  datatype BadgeVariant = Default | Secondary | Destructive | Outline
}

=== FILE: visit_analytics.dfy ===
/** The visit-analytics hook: four queries (raw records and three database
    rollups) are turned into the metrics the visit page shows. The rollups'
    bodies live in the database; their rows are inputs here. */
module VisitAnalytics {
  import opened JsCore
  import opened VisitData
  import StableSort

  /** A row of `get_device_distribution` (group = `platform`) or of
      `get_market_distribution_unique_daily` (group = `market`). */
  datatype DistributionRow = DistributionRow(group: Option<string>, count: int)

  /** A labelled bar of a distribution chart. */
  datatype Entry = Entry(name: string, value: int)

  /** A row of `get_visit_metrics`. */
  datatype MetricsRow = MetricsRow(
    totalVisits: Option<int>,
    uniqueVisitors: Option<int>,
    avgDuration: Option<int>)

  datatype VisitMetrics = VisitMetrics(
    totalVisits: int,
    uniqueVisitors: int,
    averageDuration: Option<int>,
    deviceDistribution: seq<Entry>,
    marketDistribution: seq<Entry>)

  const UnknownPlatform: string := "未知平台"
  const UnknownMarket: string := "未知地区"

  function EntryValue(e: Entry): int {
    e.value
  }

  function SumValues(es: seq<Entry>): int
    decreases |es|
  {
    if es == [] then 0 else es[0].value + SumValues(es[1..])
  }

  function SumCounts(rows: seq<DistributionRow>): int
    decreases |rows|
  {
    if rows == [] then 0 else rows[0].count + SumCounts(rows[1..])
  }

  /** `rows.map(item => ({name: item.group || fallback, value: Number(item.count)}))`. */
  function Relabel(rows: seq<DistributionRow>, fallback: string): (es: seq<Entry>)
    ensures |es| == |rows|
    ensures forall i :: 0 <= i < |rows| ==> es[i].value == rows[i].count
    ensures forall i :: 0 <= i < |rows| ==>
      es[i].name == (if rows[i].group.Some? && rows[i].group.value != "" then rows[i].group.value else fallback)
    ensures SumValues(es) == SumCounts(rows)
    decreases |rows|
  {
    if rows == [] then []
    else [Entry(OrString(rows[0].group, fallback), rows[0].count)] + Relabel(rows[1..], fallback)
  }

  lemma {:induction false} SumValuesInsert(x: Entry, es: seq<Entry>)
    ensures SumValues(StableSort.Insert(x, es, EntryValue)) == x.value + SumValues(es)
    decreases |es|
  {
    if es != [] && es[0].value > x.value {
      SumValuesInsert(x, es[1..]);
      var r := StableSort.Insert(x, es, EntryValue);
      assert r[1..] == StableSort.Insert(x, es[1..], EntryValue);
    } else {
      assert ([x] + es)[1..] == es;
    }
  }

  lemma {:induction false} SumValuesSort(es: seq<Entry>)
    ensures SumValues(StableSort.SortDesc(es, EntryValue)) == SumValues(es)
    decreases |es|
  {
    if es != [] {
      SumValuesSort(es[1..]);
      SumValuesInsert(es[0], StableSort.SortDesc(es[1..], EntryValue));
    }
  }

  /** The labelled distribution built from an optional list of rollup rows,
      sorted by value, largest first (`?.map(...).sort(...) || []`). */
  function Distribution(rows: Option<seq<DistributionRow>>, fallback: string): (r: seq<Entry>)
    ensures rows.None? ==> r == []
    ensures rows.Some? ==> multiset(r) == multiset(Relabel(rows.value, fallback))
    ensures StableSort.NonIncreasing(r, EntryValue)
    ensures rows.Some? ==> forall v :: StableSort.WithKey(r, EntryValue, v) ==
                                       StableSort.WithKey(Relabel(rows.value, fallback), EntryValue, v)
    ensures rows.Some? ==> SumValues(r) == SumCounts(rows.value)
  {
    match rows
    case None => []
    case Some(rs) =>
      var es := Relabel(rs, fallback);
      StableSort.SortDescSorted(es, EntryValue);
      StableSort.SortDescPermutes(es, EntryValue);
      SumValuesSort(es);
      assert forall v :: StableSort.WithKey(StableSort.SortDesc(es, EntryValue), EntryValue, v) ==
                         StableSort.WithKey(es, EntryValue, v) by {
        forall v {
          StableSort.SortDescStable(es, EntryValue, v);
        }
      }
      StableSort.SortDesc(es, EntryValue)
  }

  /** `x || 0` for a numeric rollup column. */
  function CountOrZero(x: Option<int>): (n: int)
    ensures x.None? ==> n == 0
    ensures x.Some? ==> n == x.value
  {
    match x
    case Some(v) => if v != 0 then v else 0
    case None => 0
  }

  /** `x || null` for the average-duration column: zero also reads as "no data". */
  function DurationOrNull(x: Option<int>): (d: Option<int>)
    ensures d.Some? <==> x.Some? && x.value != 0
    ensures d.Some? ==> d == x
  {
    match x
    case Some(v) => if v != 0 then Some(v) else None
    case None => None
  }

  /** The metrics assembled from the three rollups. Only the first row of
      `get_visit_metrics` is read. */
  function AssembleMetrics(
    metricsRows: Option<seq<MetricsRow>>,
    deviceRows: Option<seq<DistributionRow>>,
    marketRows: Option<seq<DistributionRow>>): (m: VisitMetrics)
    ensures metricsRows.None? || metricsRows.value == [] ==>
      m.totalVisits == 0 && m.uniqueVisitors == 0 && m.averageDuration.None?
    ensures metricsRows.Some? && metricsRows.value != [] ==>
      m.totalVisits == metricsRows.value[0].totalVisits.GetOr(0) &&
      m.uniqueVisitors == metricsRows.value[0].uniqueVisitors.GetOr(0)
    ensures metricsRows.Some? && metricsRows.value != [] ==>
      m.averageDuration == DurationOrNull(metricsRows.value[0].avgDuration)
    ensures m.averageDuration.Some? ==> m.averageDuration.value != 0
    ensures m.deviceDistribution == Distribution(deviceRows, UnknownPlatform)
    ensures m.marketDistribution == Distribution(marketRows, UnknownMarket)
  {
    var first: Option<MetricsRow> :=
      if metricsRows.Some? && metricsRows.value != [] then Some(metricsRows.value[0]) else None;
    VisitMetrics(
      if first.Some? then CountOrZero(first.value.totalVisits) else 0,
      if first.Some? then CountOrZero(first.value.uniqueVisitors) else 0,
      if first.Some? then DurationOrNull(first.value.avgDuration) else None,
      Distribution(deviceRows, UnknownPlatform),
      Distribution(marketRows, UnknownMarket))
  }

  // ---------------------------------------------------------------------
  // Load / error state around one fetch

  /** What one query returned: its data (possibly `null`) or its error. */
  datatype QueryResult<T> = Ok(data: Option<T>) | Err(message: string)

  /** The four query results of one fetch, in the order they are awaited. */
  datatype Responses = Responses(
    records: QueryResult<seq<VisitRecord>>,
    metrics: QueryResult<seq<MetricsRow>>,
    devices: QueryResult<seq<DistributionRow>>,
    markets: QueryResult<seq<DistributionRow>>)

  datatype AnalyticsState = AnalyticsState(
    visitRecords: seq<VisitRecord>,
    metrics: VisitMetrics,
    loading: bool)

  /** The destructive toast shown when a fetch fails. */
  datatype Toast = Toast(title: string, description: string)

  datatype FetchResult = FetchResult(state: AnalyticsState, toast: Option<Toast>)

  const FetchFailedTitle: string := "获取记录失败"

  function InitialState(): (s: AnalyticsState)
    ensures s.loading && s.visitRecords == []
    ensures s.metrics.totalVisits == 0 && s.metrics.uniqueVisitors == 0
    ensures s.metrics.averageDuration.None?
    ensures s.metrics.deviceDistribution == [] && s.metrics.marketDistribution == []
  {
    AnalyticsState([], VisitMetrics(0, 0, None, [], []), true)
  }

  /** The message of the first failing query, if any; later queries are
      never awaited once one has failed. */
  function FirstError(q: Responses): (e: Option<string>)
    ensures e.None? <==> q.records.Ok? && q.metrics.Ok? && q.devices.Ok? && q.markets.Ok?
    ensures q.records.Err? ==> e == Some(q.records.message)
    ensures q.records.Ok? && q.metrics.Err? ==> e == Some(q.metrics.message)
    ensures q.records.Ok? && q.metrics.Ok? && q.devices.Err? ==> e == Some(q.devices.message)
    ensures q.records.Ok? && q.metrics.Ok? && q.devices.Ok? && q.markets.Err? ==>
      e == Some(q.markets.message)
  {
    if q.records.Err? then Some(q.records.message)
    else if q.metrics.Err? then Some(q.metrics.message)
    else if q.devices.Err? then Some(q.devices.message)
    else if q.markets.Err? then Some(q.markets.message)
    else None
  }

  /** Entry to the fetch: only the loading flag changes. */
  function BeginFetch(s: AnalyticsState): (r: AnalyticsState)
    ensures r.loading
    ensures r.visitRecords == s.visitRecords && r.metrics == s.metrics
  {
    s.(loading := true)
  }

  /** Completion of the fetch (the `try`/`catch`/`finally` after the awaits). */
  function CompleteFetch(s: AnalyticsState, q: Responses): (r: FetchResult)
    ensures !r.state.loading
    ensures FirstError(q).Some? ==>
      r.state.visitRecords == s.visitRecords && r.state.metrics == s.metrics &&
      r.toast == Some(Toast(FetchFailedTitle, FirstError(q).value))
    ensures FirstError(q).None? ==>
      r.toast.None? &&
      r.state.visitRecords == q.records.data.GetOr([]) &&
      r.state.metrics == AssembleMetrics(q.metrics.data, q.devices.data, q.markets.data)
  {
    match FirstError(q)
    case Some(message) =>
      FetchResult(s.(loading := false), Some(Toast(FetchFailedTitle, message)))
    case None =>
      FetchResult(
        AnalyticsState(
          q.records.data.GetOr([]),
          AssembleMetrics(q.metrics.data, q.devices.data, q.markets.data),
          false),
        None)
  }

  /** `fetchVisitRecords`: begin, await the four queries, complete. */
  function FetchVisitRecords(s: AnalyticsState, q: Responses): (r: FetchResult)
    ensures !r.state.loading
    ensures FirstError(q).Some? ==> r.state.visitRecords == s.visitRecords && r.state.metrics == s.metrics
    ensures FirstError(q).None? ==> r.toast.None?
  {
    CompleteFetch(BeginFetch(s), q)
  }

  /** A failed fetch after a successful one still shows the earlier data. */
  lemma FailedRefetchKeepsData(s: AnalyticsState, good: Responses, bad: Responses)
    requires FirstError(good).None? && FirstError(bad).Some?
    ensures FetchVisitRecords(FetchVisitRecords(s, good).state, bad).state.visitRecords ==
            good.records.data.GetOr([])
    ensures FetchVisitRecords(FetchVisitRecords(s, good).state, bad).state.metrics ==
            AssembleMetrics(good.metrics.data, good.devices.data, good.markets.data)
  {
  }

  /** A successful fetch does not depend on the state it started from. */
  lemma SuccessForgetsPriorState(s1: AnalyticsState, s2: AnalyticsState, q: Responses)
    requires FirstError(q).None?
    ensures FetchVisitRecords(s1, q) == FetchVisitRecords(s2, q)
  {
  }
}

=== FILE: visit_data.dfy ===
/** Row shapes of the `visit_records` table and of its `device_info` JSON
    column (src/integrations/supabase/types.ts). Timestamps are instants on an
    integer clock; their text encoding is not modelled. */
module VisitData {
  import opened JsCore

  /** The fields of a device snapshot that the pages read. */
  datatype DeviceFields = DeviceFields(
    platform: Option<string>,
    screenWidth: Option<int>,
    screenHeight: Option<int>)

  /** A `Json` column value: a scalar (including `null` and a serialized JSON
      string) or an object. */
  datatype DeviceJson = Scalar(v: Value) | Object(fields: DeviceFields)

  datatype VisitRecord = VisitRecord(
    id: string,
    userEmail: Option<string>,
    visitStartTime: Option<int>,
    visitEndTime: Option<int>,
    deviceInfo: DeviceJson,
    market: Option<string>,
    path: string,
    createdAt: Option<int>)
}

=== FILE: visit_info.dfy ===
/** Helpers of the visit page: the pagination bar, the duration and device
    formatters, the route labels and the "pages visited" metric. */
module VisitInfo {
  import opened JsCore
  import opened VisitData
  import Seqs

  // ---------------------------------------------------------------------
  // Page window

  const MaxPageButtons: int := 5

  /** `[lo, lo + 1, ..., hi]`, empty when `hi < lo` (`Array.from` clamps a
      negative length to zero). */
  function Range(lo: int, hi: int): (r: seq<int>)
    ensures |r| == if hi < lo then 0 else hi - lo + 1
    ensures forall i :: 0 <= i < |r| ==> r[i] == lo + i
  {
    if hi < lo then [] else seq(hi - lo + 1, i => lo + i)
  }

  function Max(a: int, b: int): int {
    if a >= b then a else b
  }

  function Min(a: int, b: int): int {
    if a <= b then a else b
  }

  /** `getVisiblePages`: at most five consecutive page numbers around the
      current page, shifted left near the last page. */
  function VisiblePages(currentPage: int, totalPages: int): (r: seq<int>)
    ensures |r| == Max(0, Min(totalPages, MaxPageButtons))
    ensures forall i :: 0 <= i < |r| ==> r[i] == r[0] + i
    ensures forall i :: 0 <= i < |r| ==> 1 <= r[i] <= totalPages
    ensures 1 <= currentPage <= totalPages ==> currentPage in r
    ensures totalPages > MaxPageButtons && 3 <= currentPage <= totalPages - 2 ==> r[0] == currentPage - 2
    ensures 0 < totalPages <= MaxPageButtons ==> r[0] == 1
    ensures totalPages > MaxPageButtons ==> r[0] == Max(1, Min(currentPage - 2, totalPages - 4))
  {
    if totalPages <= MaxPageButtons then
      var r := Range(1, totalPages);
      assert 1 <= currentPage <= totalPages ==> r[currentPage - 1] == currentPage;
      r
    else
      var start := Max(1, currentPage - MaxPageButtons / 2);
      var end := start + MaxPageButtons - 1;
      if end > totalPages then
        var r := Range(Max(1, totalPages - MaxPageButtons + 1), totalPages);
        assert 1 <= currentPage <= totalPages ==> r[currentPage - r[0]] == currentPage;
        r
      else
        var r := Range(start, end);
        assert 1 <= currentPage <= totalPages ==> r[currentPage - r[0]] == currentPage;
        r
  }

  /** What the pagination bar shows besides the window. */
  datatype PaginationBar = PaginationBar(
    firstLink: bool,
    leadingEllipsis: bool,
    window: seq<int>,
    trailingEllipsis: bool,
    lastLink: bool,
    previousDisabled: bool,
    nextDisabled: bool)

  /** The bar as the page renders it: the first-page link and leading
      ellipsis depend on the current page alone, the last-page link and the
      trailing ellipsis on its distance to the last page. The four `<==>`
      clauses are the rendered conditions themselves, kept as written so that
      `Bar` and `BarsAgreeInTheMiddle` can be compared against them. */
  function BarAsWritten(currentPage: int, totalPages: int): (b: PaginationBar)
    ensures b.firstLink <==> currentPage > 3
    ensures b.leadingEllipsis <==> currentPage > 4
    ensures b.trailingEllipsis <==> currentPage < totalPages - 3
    ensures b.lastLink <==> currentPage < totalPages - 2
    ensures b.leadingEllipsis ==> b.firstLink
    ensures b.trailingEllipsis ==> b.lastLink
    ensures b.window == VisiblePages(currentPage, totalPages)
    ensures b.previousDisabled <==> currentPage == 1
    ensures b.nextDisabled <==> currentPage == totalPages
  {
    PaginationBar(
      currentPage > 3,
      currentPage > 4,
      VisiblePages(currentPage, totalPages),
      currentPage < totalPages - 3,
      currentPage < totalPages - 2,
      currentPage == 1,
      currentPage == totalPages)
  }

  /** Page 4 of 5 shows a separate link to page 1 although the window
      already holds page 1. */
  lemma AsWrittenRepeatsFirstPage()
    ensures BarAsWritten(4, 5).firstLink && 1 in BarAsWritten(4, 5).window
  {
    assert VisiblePages(4, 5)[0] == 1;
  }

  /** Page 1 of 6 shows an ellipsis between the window's page 5 and the
      last-page link 6, although no page is hidden there. */
  lemma AsWrittenGaplessEllipsis()
    ensures BarAsWritten(1, 6).trailingEllipsis
    ensures BarAsWritten(1, 6).window == [1, 2, 3, 4, 5]
  {
  }

  /** Page numbers the bar shows as links, in order. */
  function Links(b: PaginationBar, totalPages: int): seq<int> {
    (if b.firstLink then [1] else []) + b.window + (if b.lastLink then [totalPages] else [])
  }

  /** The bar with the first/last links and ellipses derived from the window:
      a link only for a page the window does not show, an ellipsis only where
      pages are skipped. */
  function Bar(currentPage: int, totalPages: int): (b: PaginationBar)
    ensures b.window == VisiblePages(currentPage, totalPages)
    ensures b.leadingEllipsis ==> b.firstLink
    ensures b.trailingEllipsis ==> b.lastLink
    ensures b.firstLink <==> b.window != [] && b.window[0] > 1
    ensures b.leadingEllipsis <==> b.window != [] && b.window[0] > 2
    ensures b.lastLink <==> b.window != [] && b.window[|b.window| - 1] < totalPages
    ensures b.trailingEllipsis <==> b.window != [] && b.window[|b.window| - 1] < totalPages - 1
    ensures Seqs.NoDuplicates(Links(b, totalPages))
    ensures b.previousDisabled <==> currentPage == 1
    ensures b.nextDisabled <==> currentPage == totalPages
  {
    var w := VisiblePages(currentPage, totalPages);
    var first := w != [] && w[0] > 1;
    var last := w != [] && w[|w| - 1] < totalPages;
    var b := PaginationBar(
      first,
      w != [] && w[0] > 2,
      w,
      w != [] && w[|w| - 1] < totalPages - 1,
      last,
      currentPage == 1,
      currentPage == totalPages);
    assert Seqs.NoDuplicates(Links(b, totalPages)) by {
      var links := Links(b, totalPages);
      var pre := if first then [1] else [];
      assert links == pre + w + (if last then [totalPages] else []);
      forall i, j | 0 <= i < j < |links|
        ensures links[i] < links[j]
      {
        if i >= |pre| && j < |pre| + |w| {
          assert links[i] == w[i - |pre|] && links[j] == w[j - |pre|];
        }
      }
    }
    b
  }

  /** Away from both ends of a long page list the two bars agree. */
  lemma BarsAgreeInTheMiddle(currentPage: int, totalPages: int)
    requires totalPages > MaxPageButtons && 3 <= currentPage <= totalPages - 2
    ensures Bar(currentPage, totalPages) == BarAsWritten(currentPage, totalPages)
  {
    var w := VisiblePages(currentPage, totalPages);
    assert w[0] == currentPage - 2;
    assert w[|w| - 1] == currentPage + 2;
  }

  // ---------------------------------------------------------------------
  // Duration

  const NoData: string := "暂无数据"

  /** `Math.floor(s / 60)`. */
  function FloorDiv60(s: int): int {
    s / 60
  }

  /** `s % 60` with JavaScript's sign-of-dividend remainder. */
  function TruncRem60(s: int): (r: int)
    ensures s >= 0 ==> r == s % 60
    ensures -60 < r < 60
  {
    if s >= 0 then s % 60 else -((-s) % 60)
  }

  /** `formatDuration`: "m分 s秒" when there is at least one whole minute,
      "s秒" otherwise. */
  function FormatDuration(seconds: Option<int>): (text: string)
    ensures seconds.None? ==> text == NoData
  {
    match seconds
    case None => NoData
    case Some(s) =>
      var minutes := FloorDiv60(s);
      var rest := TruncRem60(s);
      if minutes > 0 then IntToString(minutes) + "分 " + IntToString(rest) + "秒"
      else IntToString(rest) + "秒"
  }

  /** Position of the first `c` in `s`, if any. */
  function IndexOf(s: string, c: char): (r: Option<nat>)
    ensures r.Some? ==> r.value < |s| && s[r.value] == c && c !in s[..r.value]
    ensures r.None? ==> c !in s
  {
    if s == [] then None
    else if s[0] == c then Some(0)
    else match IndexOf(s[1..], c)
      case None => None
      case Some(i) =>
        assert s[..i + 1] == [s[0]] + s[1..][..i];
        Some(i + 1)
  }

  /** Reads a non-negative duration text back into seconds. */
  function ParseDuration(text: string): Option<int> {
    if |text| < 1 || text[|text| - 1] != '秒' then None
    else ParseBody(text[..|text| - 1])
  }

  /** The text before the seconds unit. */
  function ParseBody(body: string): Option<int> {
    match IndexOf(body, '分')
    case None => ParseCount(body)
    case Some(k) => ParseMinutes(body[..k], body[k + 1..])
  }

  /** A non-empty run of digits. */
  function ParseCount(digits: string): Option<int> {
    if digits != [] && AllDigits(digits) then Some(DigitsValue(digits)) else None
  }

  /** The minutes digits and what follows the minute marker: a space and the
      seconds digits. */
  function ParseMinutes(mins: string, rest: string): Option<int> {
    if rest != [] && rest[0] == ' ' then
      match (ParseCount(mins), ParseCount(rest[1..]))
      case (Some(m), Some(sec)) => Some(m * 60 + sec)
      case _ => None
    else None
  }

  /** In digits followed by a marker, the marker's first occurrence is right
      after the digits. */
  lemma {:induction false} MarkerAfterDigits(digits: string, tail: string)
    requires AllDigits(digits) && tail != [] && tail[0] == '分'
    ensures IndexOf(digits + tail, '分') == Some(|digits|)
    decreases |digits|
  {
    if digits != [] {
      assert (digits + tail)[0] == digits[0];
      assert (digits + tail)[1..] == digits[1..] + tail;
      MarkerAfterDigits(digits[1..], tail);
    } else {
      assert digits + tail == tail;
    }
  }

  lemma DigitsLackMarker(digits: string)
    requires AllDigits(digits)
    ensures '分' !in digits
  {
  }

  /** Digits followed by the seconds unit read back as that many seconds. */
  lemma ParsePlainSeconds(digits: string)
    requires digits != [] && AllDigits(digits)
    ensures ParseDuration(digits + "秒") == Some(DigitsValue(digits))
  {
    var text := digits + "秒";
    assert text[..|text| - 1] == digits;
    DigitsLackMarker(digits);
    assert IndexOf(digits, '分').None?;
  }

  lemma {:induction false} ShortDurationRoundTrip(s: int)
    requires 0 <= s < 60
    ensures ParseDuration(FormatDuration(Some(s))) == Some(s)
    ensures '分' !in FormatDuration(Some(s))
  {
    var rest := NatToString(s);
    assert FormatDuration(Some(s)) == rest + "秒" by {
      assert FloorDiv60(s) == 0 && TruncRem60(s) == s;
    }
    NatToStringRoundTrip(s);
    ParsePlainSeconds(rest);
    DigitsLackMarker(rest);
  }

  lemma ParseMinutesOfCounts(mins: string, secs: string)
    requires mins != [] && AllDigits(mins) && secs != [] && AllDigits(secs)
    ensures ParseMinutes(mins, " " + secs) == Some(DigitsValue(mins) * 60 + DigitsValue(secs))
  {
    assert (" " + secs)[1..] == secs;
  }

  /** The body of a long duration splits at the marker into its two counts. */
  lemma ParseMinutesBody(mins: string, secs: string)
    requires mins != [] && AllDigits(mins) && secs != [] && AllDigits(secs)
    ensures ParseBody(mins + ("分 " + secs)) == Some(DigitsValue(mins) * 60 + DigitsValue(secs))
  {
    var tail := "分 " + secs;
    var body := mins + tail;
    var k := |mins|;
    assert ParseBody(body) == ParseMinutes(body[..k], body[k + 1..]) by {
      MarkerAfterDigits(mins, tail);
    }
    assert body[..k] == mins;
    assert body[k + 1..] == " " + secs by {
      assert body[k..] == tail;
      assert tail[1..] == " " + secs;
    }
    ParseMinutesOfCounts(mins, secs);
  }

  /** Minutes digits, the minute marker, a space, seconds digits and the
      seconds unit read back as minutes * 60 + seconds. */
  lemma ParseMinutesSeconds(mins: string, secs: string)
    requires mins != [] && AllDigits(mins) && secs != [] && AllDigits(secs)
    ensures ParseDuration(mins + ("分 " + secs) + "秒") == Some(DigitsValue(mins) * 60 + DigitsValue(secs))
  {
    var body := mins + ("分 " + secs);
    var text := body + "秒";
    assert text[..|text| - 1] == body;
    ParseMinutesBody(mins, secs);
  }

  /** From a minute on, the text is minutes, the marker, seconds, the unit. */
  lemma FormatLongDuration(s: int)
    requires s >= 60
    ensures FormatDuration(Some(s)) == NatToString(s / 60) + ("分 " + NatToString(s % 60)) + "秒"
  {
    assert FloorDiv60(s) == s / 60 > 0 && TruncRem60(s) == s % 60;
  }

  lemma MarkerShown(mins: string, rest: string)
    ensures '分' in mins + ("分 " + rest) + "秒"
  {
    assert (mins + ("分 " + rest) + "秒")[|mins|] == '分';
  }

  lemma {:induction false} LongDurationRoundTrip(s: int)
    requires s >= 60
    ensures ParseDuration(FormatDuration(Some(s))) == Some(s)
    ensures '分' in FormatDuration(Some(s))
  {
    var mins := NatToString(s / 60);
    var rest := NatToString(s % 60);
    FormatLongDuration(s);
    NatToStringRoundTrip(s / 60);
    NatToStringRoundTrip(s % 60);
    ParseMinutesSeconds(mins, rest);
    MarkerShown(mins, rest);
  }

  /** A non-negative duration is shown without loss: the text reads back as
      the same number of seconds, and minutes appear exactly when the
      duration reaches a minute. */
  lemma FormatDurationRoundTrip(s: int)
    requires s >= 0
    ensures ParseDuration(FormatDuration(Some(s))) == Some(s)
    ensures '分' in FormatDuration(Some(s)) <==> s >= 60
  {
    if s >= 60 {
      LongDurationRoundTrip(s);
    } else {
      ShortDurationRoundTrip(s);
    }
  }

  // ---------------------------------------------------------------------
  // Route labels

  const PathLabels: map<string, string> := map[
    "/" := "仪表盘",
    "/customers" := "客户分析",
    "/products" := "产品销售",
    "/orders" := "订单管理",
    "/excel-upload" := "Excel上传",
    "/visit-info" := "访问记录",
    "/auth" := "登录页面"
  ]

  /** `getPageName`: the label of a known route, the path itself otherwise. */
  function PageName(path: string): (name: string)
    ensures path in PathLabels ==> name == PathLabels[path]
    ensures path !in PathLabels ==> name == path
  {
    if path in PathLabels && PathLabels[path] != "" then PathLabels[path] else path
  }

  /** Distinct known routes get distinct labels. */
  lemma PageNameIdentifiesRoute(p: string, q: string)
    requires p in PathLabels && q in PathLabels
    requires PageName(p) == PageName(q)
    ensures p == q
  {
  }

  // ---------------------------------------------------------------------
  // Device info

  const UnknownDevice: string := "未知设备"
  const UnknownPlatform: string := "未知平台"

  /** `x || '?'` for a screen dimension. */
  function DimensionText(d: Option<int>): (t: string)
    ensures t == "?" <==> d.None? || d.value == 0
  {
    match d
    case Some(n) =>
      if n != 0 then
        var t := IntToString(n);
        assert t != "?" by {
          if n >= 0 { assert IsDigit(t[0]); } else { assert t[0] == '-'; }
        }
        t
      else "?"
    case None => "?"
  }

  function DescribeFields(f: DeviceFields): string {
    OrString(f.platform, UnknownPlatform) + " - " +
    DimensionText(f.screenWidth) + "x" + DimensionText(f.screenHeight)
  }

  /** The text for an already-parsed device value. A JSON `null` (or
      `undefined`) fails on property access, shown as `None`; other scalars
      have none of the fields. */
  function DescribeParsed(d: DeviceJson): Option<string> {
    match d
    case Object(f) => Some(DescribeFields(f))
    case Scalar(v) =>
      if v == Null || v == Undefined then None
      else Some(DescribeFields(DeviceFields(None, None, None)))
  }

  /** `formatDeviceInfo`, with `JSON.parse` as a parameter returning `None`
      for text it rejects. `None` is a render-time failure. */
  function FormatDeviceInfo(d: DeviceJson, parse: string -> Option<DeviceJson>): (r: Option<string>)
    ensures d.Scalar? && !Truthy(d.v) ==> r == Some(UnknownDevice)
    ensures d.Scalar? && d.v.Str? && d.v.s != "" && parse(d.v.s).None? ==> r == Some(d.v.s)
    ensures d.Scalar? && d.v.Str? && d.v.s != "" && parse(d.v.s).Some? ==> r == DescribeParsed(parse(d.v.s).value)
    ensures d.Scalar? && Truthy(d.v) && !d.v.Str? ==> r == Some(DescribeFields(DeviceFields(None, None, None)))
    ensures d.Object? ==> r == Some(DescribeFields(d.fields))
  {
    match d
    case Scalar(v) =>
      if !Truthy(v) then Some(UnknownDevice)
      else if v.Str? then
        match parse(v.s)
        case None => Some(v.s)
        case Some(parsed) => DescribeParsed(parsed)
      else DescribeParsed(d)
    case Object(_) => DescribeParsed(d)
  }

  /** Stored JSON text describing an object reads "<platform> - <w>x<h>";
      without a platform it begins with the unknown-platform label, and a
      missing width or height shows as "?". */
  lemma StoredDeviceText(s: string, f: DeviceFields, parse: string -> Option<DeviceJson>)
    requires s != "" && parse(s) == Some(Object(f))
    ensures FormatDeviceInfo(Scalar(Str(s)), parse) ==
      Some(OrString(f.platform, UnknownPlatform) + " - " + DimensionText(f.screenWidth) + "x" + DimensionText(f.screenHeight))
    ensures f.platform.None? ==>
      FormatDeviceInfo(Scalar(Str(s)), parse).value[..|UnknownPlatform|] == UnknownPlatform
    ensures f.screenWidth.None? && f.screenHeight.None? ==>
      FormatDeviceInfo(Scalar(Str(s)), parse) == Some(OrString(f.platform, UnknownPlatform) + " - ?x?")
  {
    var t := FormatDeviceInfo(Scalar(Str(s)), parse).value;
    if f.platform.None? {
      assert t == UnknownPlatform + (" - " + DimensionText(f.screenWidth) + "x" + DimensionText(f.screenHeight));
    }
    if f.screenWidth.None? && f.screenHeight.None? {
      var p := OrString(f.platform, UnknownPlatform);
      assert DimensionText(f.screenWidth) == "?" && DimensionText(f.screenHeight) == "?";
      assert p + " - " + "?" + "x" + "?" == p + " - ?x?";
    }
  }

  /** A `device_info` column holding the text "null" parses to `null`, and
      the property access on it fails the render. */
  lemma AsWrittenNullDeviceFails(parse: string -> Option<DeviceJson>)
    requires parse("null") == Some(Scalar(Null))
    ensures FormatDeviceInfo(Scalar(Str("null")), parse).None?
  {
  }

  /** The device text with a parsed `null` (or `undefined`) read as an unknown
      device, so that every stored value has a text. */
  function DeviceLabel(d: DeviceJson, parse: string -> Option<DeviceJson>): (r: string)
    ensures d.Scalar? && !Truthy(d.v) ==> r == UnknownDevice
    ensures d.Scalar? && d.v.Str? && d.v.s != "" ==>
      (parse(d.v.s) in {Some(Scalar(Null)), Some(Scalar(Undefined))} ==> r == UnknownDevice)
    ensures FormatDeviceInfo(d, parse).Some? ==> r == FormatDeviceInfo(d, parse).value
  {
    match FormatDeviceInfo(d, parse)
    case Some(t) => t
    case None => UnknownDevice
  }

  /** A described device reads "<platform> - <width>x<height>", with the
      unknown-platform label exactly for a missing or empty platform and "?"
      exactly for a missing or zero dimension. */
  lemma DescribeFieldsParts(f: DeviceFields)
    ensures DescribeFields(f) ==
      OrString(f.platform, UnknownPlatform) + " - " + DimensionText(f.screenWidth) + "x" + DimensionText(f.screenHeight)
    ensures (f.platform.None? || f.platform.value == "") ==> OrString(f.platform, UnknownPlatform) == UnknownPlatform
    ensures DimensionText(f.screenWidth) == "?" <==> f.screenWidth.None? || f.screenWidth.value == 0
    ensures DimensionText(f.screenHeight) == "?" <==> f.screenHeight.None? || f.screenHeight.value == 0
  {
  }

  // ---------------------------------------------------------------------
  // Pages visited

  function Paths(records: seq<VisitRecord>): (ps: seq<string>)
    ensures |ps| == |records|
    ensures forall i :: 0 <= i < |records| ==> ps[i] == records[i].path
  {
    seq(|records|, i requires 0 <= i < |records| => records[i].path)
  }

  lemma {:induction false} SetOfSeqBound(xs: seq<string>)
    ensures |set x | x in xs| <= |xs|
    decreases |xs|
  {
    if xs != [] {
      SetOfSeqBound(xs[1..]);
      assert (set x | x in xs) == (set x | x in xs[1..]) + {xs[0]};
    }
  }

  /** `new Set(visitRecords.map(r => r.path)).size`. */
  function DistinctPathCount(records: seq<VisitRecord>): (n: nat)
    ensures n <= |records|
    ensures records != [] ==> n >= 1
    ensures n == |Seqs.Distinct(Paths(records))|
  {
    var ps := Paths(records);
    var paths := set x | x in ps;
    SetOfSeqBound(ps);
    DistinctCardinality(ps);
    assert records != [] ==> ps[0] in paths;
    |paths|
  }

  /** The first-seen list of distinct paths has as many entries as the set. */
  lemma {:induction false} DistinctCardinality(xs: seq<string>)
    ensures |Seqs.Distinct(xs)| == |set x | x in xs|
  {
    var d := Seqs.Distinct(xs);
    DistinctSetSize(d);
    assert (set x | x in d) == (set x | x in xs);
  }

  lemma {:induction false} DistinctSetSize(d: seq<string>)
    requires Seqs.NoDuplicates(d)
    ensures |set x | x in d| == |d|
    decreases |d|
  {
    if d != [] {
      DistinctSetSize(d[1..]);
      assert (set x | x in d) == (set x | x in d[1..]) + {d[0]};
      assert d[0] !in d[1..] by {
        forall j | 0 <= j < |d[1..]|
          ensures d[1..][j] != d[0]
        {
          assert d[1..][j] == d[j + 1];
        }
      }
    }
  }
}
